=== FILE: README.md ===
# kmts — a Dafny model of the KISSmetrics tracking client

This project models the core of `kmts`, a Ruby client for the KISSmetrics
analytics service (`lib/kmts.rb`). A client is registered under a name with an
API key. Its three producing operations — `record`, `alias` and `set` — turn an
event into an escaped query `/<tag>?k=v&k=v...` carrying the reserved fields
`_p` (subject id), `_k` (client key), `_d` (backdate flag) and `_t`
(timestamp). The query is requested from the tracking host at once and,
when the request fails, appended to a query log on disk. `send_logged_queries`
is meant to move that log to an in-flight file, replay it line by line,
re-queue the lines whose request fails and remove the in-flight file.

Two parts of the code do not do what they are evidently meant to do, and the
model states both the code as written and the intended behaviour (see the
findings at the end):

- Cron mode (`init(:use_cron => true)`) is meant to queue every query instead
  of requesting it. But `generate_query` is an instance method and reads the
  client's own `@use_cron` (line 241), which nothing assigns; only the class's
  `@use_cron` is set (lines 15, 34). As written every query is requested
  unless in dry-run (`Events.Perform`); the intended routing is
  `Events.PerformIntended`.
- `send_logged_queries` is an instance method whose first `log_name` call
  (line 98) has no receiver, while `log_name` is a class method (line 128)
  with no instance wrapper (lines 253-257). As written the call raises
  NoMethodError and the flush only logs it (`Flush.FlushAsWritten`); the
  intended flush is `Flush.Flush`.

Modules, one per file, in dependency order:

- `Wrappers` (`wrappers.dfy`): `Option` and `Result`.
- `RubyValues` (`ruby_values.dfy`): the Ruby objects that reach the client
  (String, Symbol, Integer, true/false, nil), with `to_s`, truthiness and
  ActiveSupport's `blank?`/`present?`.
- `OrderedHash` (`ordered_hash.dfy`): an insertion-ordered Ruby Hash as a
  sequence of pairs, `Hash#update`, and `hash_keys_to_str`, which rebuilds a
  hash with Symbol keys turned into Strings.
- `Escaping` (`escaping.dfy`): `URI.escape` over the complement of the
  unreserved set of section 2.3 of RFC 2396, and percent-decoding as its
  partner.
- `QueryBuilder` (`query_builder.dfy`): storing the reserved fields, rendering
  the query, and a parser for the rendered shape.
- `LogStore` (`log_store.dfy`): the log directory as a map from path to lines,
  `log_name` with its memo table `@logs`, `log`, `log_query` and `log_error`.
  Each append may fail; a fault oracle, indexed by the number of appends made
  so far, decides which do.
- `Registry` (`registry.dfy`): `register`.
- `Delivery` (`delivery.dfy`): `send_query`, and the send-or-queue routing at
  the end of `generate_query` under a given `@use_cron` flag. A network oracle
  decides each request.
- `Events` (`events.dfy`): `record`, `alias` and `set`, including the
  `is_initialized?` guard, as written and with the intended cron routing.
- `Flush` (`flush.dfy`): `send_logged_queries`, as written and as intended.

Behaviour of the code that a reader might not expect, which the model keeps:

- The intended flush takes the legacy query log `kissmetrics_query.log` in
  preference to the environment's query log (lines 98-99), not the other way
  round.
- `is_initialized?` refuses only a nil key; an empty String key is accepted
  (lines 259-265).
- In a record query the converted properties come first; after them `update`
  appends `_n`, `_p`, `_k`, then `_t` or `_d`, each new key at the end (lines 70,
  230-233). A `_p` or `_t` the caller supplied keeps its place among the
  properties, and `_d` is then appended.
- The escaped set is the complement of the full RFC 2396 unreserved set, so
  `! * ' ( )` are left unescaped as well as `- _ . ~` (line 235).
- The in-flight file is named `<seconds>kissmetrics__<env>_sending.log`, with
  two underscores, because `env` already starts with one (line 142).
- The intended flush requests every line even in cron mode, since
  `send_query` does not look at `@use_cron` (lines 169-184).
- In the intended flush, a leftover in-flight file at the memoised path is
  replaced by the move (line 101), and its lines are lost.

The clock, the network and the file system are parameters: a `Clock` value
(`Time.now.to_i` and its `%c` text), a network `Outcome` per request, and a
`Faults` function deciding each append. The class-level configuration
(`@host`, `@log_dir`, `@use_cron`, `@dryrun`, the environment name) is a
`Config` value.
The lemmas about the log streams assume that every memoised path was built from
that same configuration (`LogStore.CacheFits`).

## Model

| member | source | states |
|---|---|---|
| RubyValues.NatToStringRoundTrip | lib/kmts.rb:142 | the decimal text of the time in the in-flight file name reads back as that time |
| RubyValues.Blank | lib/kmts.rb:43 | ActiveSupport's `blank?`: nil, false, the empty String and the empty Symbol are blank, an Integer and true never are, and a blank String or Symbol holds only white space |
| OrderedHash.Find | lib/kmts.rb:230-233 | the position of a key is its first occurrence, or the length when the key is absent |
| OrderedHash.Update | lib/kmts.rb:70 | `Hash#update` with one pair: the key now maps to the value, every other key keeps its value and position, an existing key is replaced in place, a new key is appended at the end, and distinct keys stay distinct |
| OrderedHash.Normalise | lib/kmts.rb:124-126 | `hash_keys_to_str` yields a hash without duplicate keys and without Symbol keys |
| OrderedHash.NormaliseGet | lib/kmts.rb:124-126 | after `hash_keys_to_str`, every key (Symbols folded into Strings) maps to the value of its last occurrence in the input, or nil |
| OrderedHash.NormaliseMentions | lib/kmts.rb:124-126 | a key is present after `hash_keys_to_str` exactly when some input key converts to it, so an absent key is told apart from one mapped to nil |
| OrderedHash.NormaliseKeys | lib/kmts.rb:124-126 | the keys after `hash_keys_to_str` are the converted input keys in the order of their first occurrence, each once |
| OrderedHash.StoreAll | lib/kmts.rb:125 | building a hash pair by pair keeps keys distinct and Symbol-free when the starting hash is |
| OrderedHash.StoreAllGet | lib/kmts.rb:125 | building a hash from pairs left to right keeps, per key, the last value given, and otherwise what was there before |
| OrderedHash.NormaliseDistinct | lib/kmts.rb:124-126 | when the converted keys are already distinct, `hash_keys_to_str` only converts the keys and keeps every pair in order |
| OrderedHash.NormaliseIdempotent | lib/kmts.rb:227 | converting the keys twice, as `record` (line 65) followed by `generate_query` does, equals converting once |
| OrderedHash.NormaliseNormal | lib/kmts.rb:227 | a hash with distinct, Symbol-free keys is returned unchanged |
| Escaping.Utf8 | lib/kmts.rb:235-238 | a character's UTF-8 encoding has one to four bytes; ASCII is one byte equal to its code, and no byte of a non-ASCII character is ASCII |
| Escaping.Percent | lib/kmts.rb:238 | `%XX` with two uppercase hex digits denoting the byte |
| Escaping.EscapeChar | lib/kmts.rb:235-238 | an unreserved character stays itself; any other becomes `%XX` for each byte of its UTF-8 encoding |
| Escaping.Escape | lib/kmts.rb:235-238 | the escaped text consists only of unreserved characters and `%`, so it holds none of the separators `&`, `=`, `?` |
| Escaping.EscapeRoundTrip | lib/kmts.rb:235-238 | percent-decoding an escaped string gives back the UTF-8 bytes of the original |
| Escaping.EscapeIdentity | lib/kmts.rb:235-238 | escaping leaves a string unchanged exactly when all its characters are unreserved, and otherwise makes it longer |
| QueryBuilder.NoSeparator | lib/kmts.rb:238-240 | an escaped key or value never contains `=`, `&` or `?`, so the separators are unambiguous |
| QueryBuilder.StoreIdentity | lib/kmts.rb:230-231 | `_k` is the client key; `_p` is the id when the id is truthy and is left alone otherwise; every other field keeps its value and position |
| QueryBuilder.StoreTime | lib/kmts.rb:232-233 | a truthy `_t` is kept and `_d` set to 1; otherwise `_t` becomes the current time and `_d` is left alone; `_t` is truthy afterwards and no other field changes |
| QueryBuilder.WithReserved | lib/kmts.rb:230-233 | the combined effect of the four reserved stores: client key, subject id, backdate flag and timestamp as above, non-reserved fields unchanged, at most three fields added |
| QueryBuilder.SplitJoin | lib/kmts.rb:238-240 | splitting at a separator that no part contains gives back the joined parts |
| QueryBuilder.ParsePairRoundTrip | lib/kmts.rb:238 | parsing `escape(k)=escape(v)` gives the UTF-8 bytes of `k.to_s` and `v.to_s` |
| QueryBuilder.ParsePairsRoundTrip | lib/kmts.rb:237-239 | parsing every rendered pair gives the decoded fields in hash order |
| QueryBuilder.Render | lib/kmts.rb:237-240 | parsing a rendered query gives back its tag and every key and value, UTF-8 encoded, in the order of the hash |
| QueryBuilder.BuildQuery | lib/kmts.rb:226-240 | the query of `generate_query` parses back to its tag and carries `_k` with the client key and a `_t` field |
| QueryBuilder.FieldOnWire | lib/kmts.rb:237-240 | every field present in the hash appears, decoded, among the query's fields |
| LogStore.LogName | lib/kmts.rb:128-145 | `log_name` returns the memoised path when there is one and otherwise the path for the configuration and time, which it memoises; no file changes |
| LogStore.MemoStable | lib/kmts.rb:129 | once a path is memoised, later calls return it whatever the configuration or the time |
| LogStore.NamesIgnoreTime | lib/kmts.rb:132-141 | only the in-flight file name depends on the time |
| LogStore.FileNameShape | lib/kmts.rb:132-142 | every log file name ends in `.log`, and all but the in-flight one start with `kissmetrics` |
| LogStore.JoinPathShape | lib/kmts.rb:144 | `File.join` keeps the directory as a prefix and the file name as the suffix after a `/`, adding one `/` exactly when the directory does not end in one |
| LogStore.InFlightNameShape | lib/kmts.rb:137-142 | the in-flight name is the decimal time followed by `kissmetrics__<env>_sending.log`; the legacy name has no environment |
| LogStore.PathsDistinct | lib/kmts.rb:132-144 | two different streams never share a path, whatever the times |
| LogStore.Prefix | lib/kmts.rb:209 | a present name is written before the message as its text followed by `: `; otherwise the message is written as it is |
| LogStore.Log | lib/kmts.rb:208-223 | a successful append adds exactly the (prefixed) line to the stream's file and changes no other file; a failed one changes nothing and raises only for the query stream |
| LogStore.LogQuery | lib/kmts.rb:147-149 | the query stream gains the bare query line; this matches the code only for a client without a name, and is the corrected write the replay in `send_logged_queries` needs |
| LogStore.LogQueryAsWritten | lib/kmts.rb:147-149 | the query stream gains the query prefixed with the client name, which the instance wrapper of lines 253-257 passes, as the code writes it |
| LogStore.LogError | lib/kmts.rb:159-167 | the error stream gains `<stamp> message`, prefixed with the name; nothing else changes and nothing is raised |
| LogStore.LogFits | lib/kmts.rb:128-145 | appending keeps every memoised path consistent with the configuration and writes a time-independent stream at its fixed path |
| Registry.Register | lib/kmts.rb:42-47 | registration succeeds exactly when the name is a non-blank String or Symbol not yet registered; it adds one client and keeps all others; the two errors come in the code's order |
| Registry.ValidName | lib/kmts.rb:43 | an acceptable name is truthy with non-empty text; Integers, booleans and nil never are |
| Registry.RegisterTwice | lib/kmts.rb:43-46 | a second registration under the same name fails and a Symbol is a different name from the String of the same text |
| Delivery.SendQuery | lib/kmts.rb:169-184 | dry-run makes no request; otherwise one request is made, and a failed request raises `<cause> for host <host>` without writing, while a successful one is recorded on the sent stream |
| Delivery.Route | lib/kmts.rb:241-250 | under the `@use_cron` flag `generate_query` reads, the query is requested exactly when that flag is off and dry-run is off, only a query write error escapes, and no memoised path is forgotten |
| Delivery.Deliver | lib/kmts.rb:244-249 | the query is requested unless in dry-run, and only a failed write to the query stream escapes |
| Delivery.RouteCron | lib/kmts.rb:241-242 | with the flag on, nothing is requested, the network is irrelevant, and without faults the query stream gains exactly the query (only the intended routing turns the flag on) |
| Delivery.RouteCronWriteFails | lib/kmts.rb:241-242 | with the flag on, a failed queue write raises (line 220) a query write error and leaves the files as they were (only the intended routing turns the flag on) |
| Delivery.DeliverSent | lib/kmts.rb:169-184 | a delivered query raises nothing and, when no append fails, is recorded (prefixed) on the sent stream with no other file touched; dry-run ignores the network |
| Delivery.DeliverFallback | lib/kmts.rb:244-249 | after a failed request (made once) the bare query is queued whenever the queue append works; when the error append works as well the send error is logged and only those two streams change, and otherwise only the query stream changes |
| Delivery.DeliverFallbackWriteFails | lib/kmts.rb:246-248 | when the fallback write fails too, its error escapes and no file changes |
| Delivery.DeliverTouches | lib/kmts.rb:241-249 | whatever fails, sending only ever writes the query, sent and error streams |
| Events.Plan | lib/kmts.rb:64-93 | a client without key (lines 259-265) makes no query; `record` with a Hash is `set`; `record` adds `_n` to its converted properties under tag `e`; `alias` sends `_n` and `_p` under tag `a` with a false id; `set` sends its data under tag `s` |
| Events.Perform | lib/kmts.rb:64-93 | as written, the cron setting plays no part (line 241 reads the client's unset `@use_cron`): a built query is requested exactly when dry-run is off, a client without key requests nothing, and no memoised path is forgotten |
| Events.Produce | lib/kmts.rb:64-93 | the shared body of the three operations under a given `@use_cron`: a built query is requested exactly when that flag and dry-run are off, and an exception is logged rather than raised |
| Events.PerformIntended | lib/kmts.rb:64-93 | with routing that follows the class's cron setting (line 34), a built query is requested exactly when neither cron mode nor dry-run is on |
| Events.PerformIgnoresCron | lib/kmts.rb:241 | as written, with `use_cron` set by `init` and dry-run off, an initialized client requests its query at once, where the intended routing requests nothing |
| Events.PerformDelivered | lib/kmts.rb:241-249 | whatever the cron setting, a query whose request succeeds (or any query in dry-run) is recorded on the sent stream as `name: query` and no other file changes |
| Events.PerformSendFails | lib/kmts.rb:244-248 | whatever the cron setting, outside dry-run the query is requested once; when that request fails it is queued bare (the corrected write) and the send error logged, and no other file changes |
| Events.PerformCron | lib/kmts.rb:241-242 | with the intended routing, cron mode requests nothing, queues the query and changes no other file |
| Events.PerformUninitialized | lib/kmts.rb:259-265 | a client without key logs only the initialization error and requests nothing |
| Events.RecordWithHashIsSet | lib/kmts.rb:68 | `record(id, hash)` behaves exactly as `set(id, hash)` |
| Events.PerformQueueWriteFails | lib/kmts.rb:241-242 | with the intended routing, a failed queue write in cron mode is caught by the operation and logged as an error, and nothing else is written |
| Events.RecordDataNormal | lib/kmts.rb:65-71 | the second key conversion in `generate_query` (line 227) leaves `record`'s data unchanged |
| Events.RecordOnTheWire | lib/kmts.rb:64-75 | a recorded event's query parses with tag `e` and carries `_n` with the event, `_k` with the key, `_p` with a truthy id, and `_t` |
| Events.RecordQuery | lib/kmts.rb:64-75 | the query `generate_query` builds for `record` is the rendering of its properties with `_n` and the reserved fields stored |
| Events.AliasOnTheWire | lib/kmts.rb:77-84 | an alias query parses with tag `a` and fields exactly `_n`, `_p`, `_k`, `_t` in that order |
| Events.AliasFields | lib/kmts.rb:230-233 | the alias data gains `_k` and `_t` at the end and no `_p` from the false id |
| Flush.Drain | lib/kmts.rb:103-111 | the replay loop stops only on a query write error, makes at most one request per line, and when it runs to the end requests every line in order, or none in dry-run |
| Flush.Source | lib/kmts.rb:98-100 | in the intended flush, choosing the file to flush changes no file and forgets no memoised path |
| Flush.SourceFits | lib/kmts.rb:98-99 | in the intended flush, the legacy query log is flushed when it exists, and the environment's query log otherwise |
| Flush.MoveToInFlight | lib/kmts.rb:101 | in the intended flush, the in-flight path (memoised, or built from the configuration and time) now holds the queued lines, the queue file is gone unless it is that path, no other file changes and nothing is appended |
| Flush.Finish | lib/kmts.rb:113-115 | in the intended flush, after a replay that was not interrupted, the in-flight file is removed |
| Flush.SentOrRequeued | lib/kmts.rb:103-111 | every replayed line is either sent or re-queued, and no line is both |
| Flush.OneErrorPerRequeued | lib/kmts.rb:107-109 | each re-queued line comes with one logged error |
| Flush.DryRunSendsAll | lib/kmts.rb:170-171 | in dry-run every replayed line counts as sent and none is re-queued |
| Flush.DrainNoFaults | lib/kmts.rb:103-111 | without write faults the replay is never interrupted, and the sent, query and error streams grow by exactly the sent lines, the failed lines and their errors, in line order |
| Flush.DrainTouches | lib/kmts.rb:103-111 | the replay only writes the query, sent and error streams |
| Flush.FlushNothingQueued | lib/kmts.rb:100 | in the intended flush, without a queue file nothing is requested and no file changes |
| Flush.FlushNoFaults | lib/kmts.rb:95-117 | in the intended flush, without write faults all queued lines are requested in order, the three streams grow by exactly the expected lines, the flushed log and the in-flight file are gone, and no other file changes |
| Flush.FlushKeepsUnsent | lib/kmts.rb:101-116 | in the intended flush, whatever fails, either the in-flight file still holds every queued line or every line was requested |
| Flush.FinishKeeps | lib/kmts.rb:113-115 | in the intended flush, the in-flight file survives exactly when the replay was interrupted, and then holds the queued lines |
| Flush.Flush | lib/kmts.rb:95-117 | the intended flush: without a queue file nothing is requested and no file changes; otherwise at most one request is made per queued line |
| Flush.FlushAsWritten | lib/kmts.rb:95-117 | as written, a flush requests nothing and forgets no memoised path |
| Flush.AsWrittenFlushOnlyLogs | lib/kmts.rb:98 | as written, the `log_name` call raises NoMethodError and the flush only logs it: the error stream gains that one line when the append works, no other file changes, and nothing is requested |
| Flush.AsWrittenFlushSendsNothing | lib/kmts.rb:95-117 | queued lines that the intended flush requests in order are never requested by the flush as written |
| Flush.FlushRemembers | lib/kmts.rb:128-145 | the intended flush forgets no memoised path and memoises the in-flight path it used |
| Flush.AsWrittenReplayAltersQuery | lib/kmts.rb:208-209 | a query that a named client queues after a failed send, as the code writes it through `log_query` (lines 245-247, 253-257, 147-149), is requested by the intended flush as `name: /e?...` rather than as the query |
| Flush.FailedSendReplaysQuery | lib/kmts.rb:244-248 | with the bare queue write, a query whose request failed is requested by the next intended flush exactly as built |
| Flush.CronReplaySendsQuery | lib/kmts.rb:95-117 | with the bare queue write and cron mode honoured, a query queued in cron mode (lines 241-242) is requested by the next intended flush exactly as built |

## Left out

- Net::HTTP, the proxy taken from the environment and the host/port split (lines 174-178): a network request is an `Outcome` parameter.
- `flock` around each append (lines 213-216): the model is single-threaded, so the lock has no observable effect.
- `Time.now`: a `Clock` parameter; one reading serves a whole operation or flush, although the code reads the clock at each call.
- HoptoadNotifier and the `$stderr` copy of an error (lines 160-164): they do not change the log files.
- Environment detection from Rails or `RACK_ENV` (lines 202-206): the environment name is a `Config` field.
- `init` (lines 21-40): a `Config` value stands for the class settings it stores.
- `initialize` (lines 54-62): a `Client` value holds the key and name it stores. It does not set the client's `@use_cron`, which is why the code as written never queues in cron mode (`Events.Perform`); `log_dir_writable?` (lines 186-190), which it calls, writes nothing to the logs; but when `@to_stderr` is set and the log directory is not writable, its warning calls `log_name(:query)` (line 188) and so memoises the query path at that moment. A later `init` with another `:log_dir` then leaves the query stream in the old directory, outside `CacheFits`; the model's client creation does not touch the memo, so it does not cover that sequence.
- The `KMTS[]` accessor (lines 49-51): a lookup in the registry with no effect on what is sent or queued.
- `log_send` (lines 155-157): never called.
- `kmts/saas` (line 5): not part of this model. The as-written members assume it gives a client neither a `log_name` method nor a `@use_cron` value.
- Ruby version and encoding: the model follows Ruby 2.x, where `URI.escape` (line 238) and `File.exists?` (lines 99-100) still exist (on Ruby 3.0 and later every event would only log a NoMethodError, and so would the intended flush); every String is taken to be UTF-8 (`Escaping.Utf8Str`).
- Flush.FlushAsWritten: the receiver's `inspect` text in the NoMethodError message is a parameter; Ruby's object address in it is not modelled.
- Newlines inside a logged message: `puts` and `readline` would split it into several lines; a file is modelled as a sequence of whole lines.
- Array values in a hash, which `.flatten` in `hash_keys_to_str` would splice into the pair list, and Float values: `Value` covers the scalar kinds (String, Symbol, Integer, true/false, nil) whose `to_s` is modelled exactly.
- Failures of the move, the read or the final removal in `send_logged_queries` (lines 101-113): only appends can fail.
- Flush.FlushKeepsUnsent: when the in-flight file survives an interrupted replay, the lines already sent before the interruption are not related to it; only the all-or-in-file dichotomy is stated.
- Flush.FlushNoFaults: the stream contents after a flush are stated only when no append fails; with faults the model states which files may change (`Flush.DrainTouches`) and what survives (`Flush.FlushKeepsUnsent`).
- Events.PerformSendFails, Delivery.Route, Delivery.Deliver and Flush.Drain: they queue through the corrected `LogStore.LogQuery`, which writes the bare query; the code writes `name: query` for a named client when it queues a query (line 247, and line 242 under the intended cron routing, through the wrapper of lines 253-257) and `name: line` when it re-queues a replayed line (line 108). The code's behaviour is kept in `LogStore.LogQueryAsWritten` and shown under Findings.
- Events.Perform: `record` converts its properties (line 65) before its `begin`, so a `props` that is not a Hash, or whose flattened pairs are odd in number, raises to the caller; the model's properties are always a Hash of scalar pairs, so this exception cannot arise and `Perform` never raises.
- Delivery.RouteCron: the queued line is stated only when no append fails; a failing append is covered by `Delivery.RouteCronWriteFails`.
- Delivery.DeliverSent: the sent-stream line is stated only when no append fails; with faults `Delivery.DeliverTouches` bounds the files that may change.

## Findings

| source | as written | input that shows it | evidently intended | confidence | as-written member | corrected member |
|---|---|---|---|---|---|---|
| lib/kmts.rb:241 | `generate_query` reads the client's own `@use_cron`, which is never assigned, so cron mode is always off | `KMTS.init(:use_cron => true)`, register `"web"`, `record("u", "login")` with dry-run off: the query is requested at once (line 245) and queued only if that request fails | in cron mode every query is queued and none is requested | not executed | Events.PerformIgnoresCron (on Events.Perform) | Events.PerformCron (on Events.PerformIntended) |
| lib/kmts.rb:98 | the instance method `send_logged_queries` calls the class method `log_name` without a receiver, which raises NoMethodError; the rescue at lines 114-115 logs it | any flush, with or without a queue file: the error log gains an "undefined method" line for `log_name`, and the queue is neither moved nor replayed | the queue is moved to the in-flight file and replayed | not executed | Flush.AsWrittenFlushOnlyLogs (on Flush.FlushAsWritten) | Flush.FlushNoFaults (on Flush.Flush) |
| lib/kmts.rb:208-209 | a query is queued (lines 247, 255, 147-149) through `log`, which writes `name: ` before it for a named client | a client registered as `"web"` whose request for `/e?_n=x&...` fails: the query log holds `web: /e?_n=x&...`, which a replay would request as the path | the query log holds the bare query, so a replay requests it as built | not executed | Flush.AsWrittenReplayAltersQuery (on LogStore.LogQueryAsWritten) | Flush.FailedSendReplaysQuery (on LogStore.LogQuery, used by Delivery and Flush) |

=== FILE: delivery.dfy ===
/**
 * Sending one query and routing a freshly built one: `send_query`
 * (lib/kmts.rb:169-184), the send-or-queue step shared by `generate_query` and
 * the flush loop, and the tail of `generate_query` (lib/kmts.rb:241-250).
 * The network is an oracle: `net` says whether the HTTP GET succeeds.
 */
module Delivery {
  import opened Wrappers
  import opened RubyValues
  import opened LogStore

  /** The world after a send or a routing, the exception it raises, and the request paths it issued. */
  datatype Routed = Routed(world: World, raised: Option<Error>, requests: seq<string>)

  /**
   * `send_query(line, name)`: in dry-run the line only goes to the sent stream;
   * otherwise it is requested from the host, and a failure raises
   * `"#{e} for host #{@host}"` before anything is written, while a success
   * records the line on the sent stream.
   */
  function SendQuery(w: World, cfg: Config, clock: Clock, faults: Faults, name: Value, line: string, net: Outcome): (r: Routed)
    ensures r.requests == if cfg.dryRun then [] else [line]
    ensures r.raised.Some? <==> !cfg.dryRun && net.Failed?
    ensures r.raised.Some? ==> r.world == w && r.raised.value == SendError(net.cause, cfg.host)
    ensures r.raised.None? ==> r.world == Log(w, cfg, clock.now, faults, SentLog, name, line).world
  {
    if cfg.dryRun then Routed(Log(w, cfg, clock.now, faults, SentLog, name, line).world, None, [])
    else
      match net
      case Done => Routed(Log(w, cfg, clock.now, faults, SentLog, name, line).world, None, [line])
      case Failed(cause) => Routed(w, Some(SendError(cause, cfg.host)), [line])
  }

  /**
   * Sending with the queue as fallback (lib/kmts.rb:244-249, and the body of the
   * flush loop, lib/kmts.rb:104-110): the line is sent, and a failed send appends
   * it to the query stream and then logs the send error. A failed append to the
   * query stream raises out (and the send error is not logged).
   */
  function Deliver(w: World, cfg: Config, clock: Clock, faults: Faults, name: Value, q: string, net: Outcome): (r: Routed)
    ensures Remembers(w, r.world)
    ensures r.requests == if cfg.dryRun then [] else [q]
    ensures r.raised.Some? ==> r.raised.value.QueryWriteError?
  {
    var s := SendQuery(w, cfg, clock, faults, name, q, net);
    match s.raised
    case None => s
    case Some(e) =>
      var l := LogQuery(s.world, cfg, clock.now, faults, q);
      if l.raised.Some? then Routed(l.world, l.raised, s.requests)
      else Routed(LogError(l.world, cfg, clock, faults, name, e), None, s.requests)
  }

  /**
   * Routing of a built query (lib/kmts.rb:241-250) under the `@use_cron` flag
   * that `generate_query` reads: with the flag on, the query is appended to the
   * query stream, and a failed append raises; otherwise it is delivered. The
   * query is requested only with the flag off and outside dry-run, and the only
   * exception that escapes is a failed write to the query stream.
   */
  function Route(w: World, cfg: Config, clock: Clock, faults: Faults, name: Value, q: string, net: Outcome, cron: bool): (r: Routed)
    ensures Remembers(w, r.world)
    ensures r.requests == if cron || cfg.dryRun then [] else [q]
    ensures r.raised.Some? ==> r.raised.value.QueryWriteError?
  {
    if cron then
      var l := LogQuery(w, cfg, clock.now, faults, q);
      Routed(l.world, l.raised, [])
    else Deliver(w, cfg, clock, faults, name, q, net)
  }

  /**
   * With the flag on: nothing is requested and the send outcome plays no part;
   * with working appends, the exact query is appended to the query stream and
   * no other file changes.
   */
  lemma RouteCron(w: World, cfg: Config, clock: Clock, faults: Faults, name: Value, q: string, net: Outcome)
    requires CacheFits(w, cfg)
    ensures var r := Route(w, cfg, clock, faults, name, q, net, true);
      && r.requests == []
      && (forall net' :: Route(w, cfg, clock, faults, name, q, net', true) == r)
      && CacheFits(r.world, cfg)
      && (NoFaults(faults) ==>
            var qp := FixedPath(cfg, QueryLog);
            && r.raised == None
            && qp in r.world.files
            && Lines(r.world.files, qp) == Lines(w.files, qp) + [q]
            && SameExcept(w.files, r.world.files, {qp}))
  {
    LogFits(w, cfg, clock.now, faults, QueryLog, Nil, q);
  }

  /** With the flag on and a failing append: the query-write error is raised and no file changes. */
  lemma RouteCronWriteFails(w: World, cfg: Config, clock: Clock, faults: Faults, name: Value, q: string, net: Outcome)
    requires faults(w.appends).Failed? && CacheFits(w, cfg)
    ensures var r := Route(w, cfg, clock, faults, name, q, net, true);
      && r.raised == Some(QueryWriteError(faults(w.appends).cause))
      && r.requests == []
      && r.world.files == w.files
      && r.world.appends == w.appends + 1
      && CacheFits(r.world, cfg)
  {
    LogFits(w, cfg, clock.now, faults, QueryLog, Nil, q);
  }

  /**
   * A send that goes through, or a dry run: the line is requested unless in
   * dry-run, nothing is raised, a dry run does not depend on the network, and
   * with working appends the line lands on the sent stream, prefixed with the
   * client name, and nowhere else.
   */
  lemma DeliverSent(w: World, cfg: Config, clock: Clock, faults: Faults, name: Value, q: string, net: Outcome)
    requires (cfg.dryRun || net.Done?) && CacheFits(w, cfg)
    ensures var r := Deliver(w, cfg, clock, faults, name, q, net);
      && r.requests == (if cfg.dryRun then [] else [q])
      && r.raised == None
      && (cfg.dryRun ==> forall net' :: Deliver(w, cfg, clock, faults, name, q, net') == r)
      && CacheFits(r.world, cfg)
      && (NoFaults(faults) ==>
            var sp := FixedPath(cfg, SentLog);
            && Lines(r.world.files, sp) == Lines(w.files, sp) + [Prefix(name, q)]
            && SameExcept(w.files, r.world.files, {sp}))
  {
    LogFits(w, cfg, clock.now, faults, SentLog, name, q);
  }

  /**
   * A failed send falls back to the queue: when the queue append works, the
   * exact query is appended to the query stream and nothing is raised; the send
   * error then goes to the error stream if that append works too, and is lost
   * otherwise. The sent stream is untouched either way.
   */
  lemma DeliverFallback(w: World, cfg: Config, clock: Clock, faults: Faults, name: Value, q: string, cause: string)
    requires !cfg.dryRun && CacheFits(w, cfg) && faults(w.appends).Done?
    ensures var r := Deliver(w, cfg, clock, faults, name, q, Failed(cause));
      var qp := FixedPath(cfg, QueryLog);
      var ep := FixedPath(cfg, ErrorLog);
      && r.requests == [q]
      && r.raised == None
      && CacheFits(r.world, cfg)
      && Lines(r.world.files, qp) == Lines(w.files, qp) + [q]
      && (faults(w.appends + 1).Done? ==>
            && Lines(r.world.files, ep) == Lines(w.files, ep) + [ErrorLine(name, clock.stamp, SendError(cause, cfg.host))]
            && SameExcept(w.files, r.world.files, {qp, ep}))
      && (faults(w.appends + 1).Failed? ==> SameExcept(w.files, r.world.files, {qp}))
  {
    var qp := FixedPath(cfg, QueryLog);
    var ep := FixedPath(cfg, ErrorLog);
    var l := LogQuery(w, cfg, clock.now, faults, q);
    var e := SendError(cause, cfg.host);
    var w2 := LogError(l.world, cfg, clock, faults, name, e);
    QueuedStep(w, cfg, clock.now, faults, q);
    ErrorStep(l.world, cfg, clock, faults, name, e);
    assert Deliver(w, cfg, clock, faults, name, q, Failed(cause)) == Routed(w2, None, [q]);
    PathsDistinct(cfg, QueryLog, ErrorLog, 0, 0);
    if faults(w.appends + 1).Done? {
      SameExceptTrans(w.files, l.world.files, w2.files, {qp}, {ep});
      assert {qp} + {ep} == {qp, ep};
    }
  }

  /** A working append to the query stream adds the bare query at its fixed path and nothing else. */
  lemma QueuedStep(w: World, cfg: Config, now: nat, faults: Faults, q: string)
    requires CacheFits(w, cfg) && faults(w.appends).Done?
    ensures var l := LogQuery(w, cfg, now, faults, q);
      var qp := FixedPath(cfg, QueryLog);
      && l.raised == None
      && l.world.appends == w.appends + 1
      && CacheFits(l.world, cfg)
      && Lines(l.world.files, qp) == Lines(w.files, qp) + [q]
      && SameExcept(w.files, l.world.files, {qp})
  {
    LogFits(w, cfg, now, faults, QueryLog, Nil, q);
  }

  /** Logging an error touches only the error stream, and a failed append changes nothing. */
  lemma ErrorStep(w: World, cfg: Config, clock: Clock, faults: Faults, name: Value, e: Error)
    requires CacheFits(w, cfg)
    ensures var w2 := LogError(w, cfg, clock, faults, name, e);
      var ep := FixedPath(cfg, ErrorLog);
      && CacheFits(w2, cfg)
      && (faults(w.appends).Done? ==>
            Lines(w2.files, ep) == Lines(w.files, ep) + [ErrorLine(name, clock.stamp, e)]
            && SameExcept(w.files, w2.files, {ep}))
      && (faults(w.appends).Failed? ==> w2.files == w.files)
  {
    LogFits(w, cfg, clock.now, faults, ErrorLog, name, "<" + clock.stamp + "> " + Message(e));
  }

  /**
   * A failed send whose fallback append also fails: the query-write error is
   * raised, the send error is not logged, and no file changes.
   */
  lemma DeliverFallbackWriteFails(w: World, cfg: Config, clock: Clock, faults: Faults, name: Value, q: string, cause: string)
    requires !cfg.dryRun && faults(w.appends).Failed?
    ensures var r := Deliver(w, cfg, clock, faults, name, q, Failed(cause));
      && r.requests == [q]
      && r.raised == Some(QueryWriteError(faults(w.appends).cause))
      && r.world.files == w.files
  {
  }

  /**
   * Whatever the appends and the network do, delivering touches only the sent,
   * query and error streams, and keeps the memoised paths fitting `cfg`.
   */
  lemma DeliverTouches(w: World, cfg: Config, clock: Clock, faults: Faults, name: Value, q: string, net: Outcome)
    requires CacheFits(w, cfg)
    ensures var r := Deliver(w, cfg, clock, faults, name, q, net);
      && CacheFits(r.world, cfg)
      && SameExcept(w.files, r.world.files, {FixedPath(cfg, QueryLog), FixedPath(cfg, SentLog), FixedPath(cfg, ErrorLog)})
  {
    var all := {FixedPath(cfg, QueryLog), FixedPath(cfg, SentLog), FixedPath(cfg, ErrorLog)};
    var s := SendQuery(w, cfg, clock, faults, name, q, net);
    LogWithin(w, cfg, clock.now, faults, SentLog, name, q, all);
    if s.raised.Some? {
      var r := Deliver(w, cfg, clock, faults, name, q, net);
      FallbackWithin(s.world, cfg, clock, faults, name, q, s.raised.value, all);
      assert s.world == w;
    }
  }

  /** The fallback after a failed send changes at most the query and error streams. */
  lemma FallbackWithin(w: World, cfg: Config, clock: Clock, faults: Faults, name: Value, q: string, e: Error, ps: set<string>)
    requires CacheFits(w, cfg) && FixedPath(cfg, QueryLog) in ps && FixedPath(cfg, ErrorLog) in ps
    ensures var l := LogQuery(w, cfg, clock.now, faults, q);
      var r := if l.raised.Some? then l.world else LogError(l.world, cfg, clock, faults, name, e);
      CacheFits(r, cfg) && SameExcept(w.files, r.files, ps)
  {
    var l := LogQuery(w, cfg, clock.now, faults, q);
    LogWithin(w, cfg, clock.now, faults, QueryLog, Nil, q, ps);
    if l.raised.None? {
      LogWithin(l.world, cfg, clock.now, faults, ErrorLog, name, "<" + clock.stamp + "> " + Message(e), ps);
      SameExceptTrans(w.files, l.world.files, LogError(l.world, cfg, clock, faults, name, e).files, ps, ps);
      assert ps + ps == ps;
    }
  }

  /** One `log` call on a time-independent stream changes at most its fixed path. */
  lemma LogWithin(w: World, cfg: Config, now: nat, faults: Faults, s: Stream, name: Value, msg: string, ps: set<string>)
    requires CacheFits(w, cfg) && s != InFlight && FixedPath(cfg, s) in ps
    ensures var r := Log(w, cfg, now, faults, s, name, msg).world;
      CacheFits(r, cfg) && SameExcept(w.files, r.files, ps)
  {
    LogFits(w, cfg, now, faults, s, name, msg);
  }
}

=== FILE: escaping.dfy ===
/**
 * Percent-escaping of keys and values (lib/kmts.rb:235-238): `URI.escape` with the
 * pattern `[^UNRESERVED]`, where UNRESERVED is the unreserved set of section 2.3
 * of RFC 2396. An unreserved character is kept; every other character is replaced
 * by `%XX`, uppercase hexadecimal, for each byte of its UTF-8 encoding.
 */
module Escaping {
  import opened Wrappers

  type byte = x: int | 0 <= x < 256

  /** Section 2.3 of RFC 2396: alphanumerics and the marks `- _ . ! ~ * ' ( )`. */
  predicate Unreserved(c: char) {
    || 'a' <= c <= 'z'
    || 'A' <= c <= 'Z'
    || '0' <= c <= '9'
    || c in "-_.!~*'()"
  }

  /** The UTF-8 encoding of one Unicode scalar value. */
  function Utf8(c: char): (r: seq<byte>)
    ensures 1 <= |r| <= 4
    ensures c as int < 0x80 <==> r == [c as int]
    ensures c as int >= 0x80 ==> forall i :: 0 <= i < |r| ==> r[i] >= 0x80
  {
    var n := c as int;
    if n < 0x80 then [n]
    else if n < 0x800 then [0xC0 + n / 0x40, 0x80 + n % 0x40]
    else if n < 0x1_0000 then [0xE0 + n / 0x1000, 0x80 + (n / 0x40) % 0x40, 0x80 + n % 0x40]
    else [0xF0 + n / 0x4_0000, 0x80 + (n / 0x1000) % 0x40, 0x80 + (n / 0x40) % 0x40, 0x80 + n % 0x40]
  }

  /** The UTF-8 encoding of a string: the bytes Ruby's `each_byte` yields. */
  function Utf8Str(s: string): (r: seq<byte>)
    ensures |r| >= |s|
  {
    if s == [] then [] else Utf8(s[0]) + Utf8Str(s[1..])
  }

  predicate IsUpperHex(c: char) {
    '0' <= c <= '9' || 'A' <= c <= 'F'
  }

  predicate IsHex(c: char) {
    IsUpperHex(c) || 'a' <= c <= 'f'
  }

  function HexDigit(d: nat): (c: char)
    requires d < 16
    ensures IsUpperHex(c)
  {
    "0123456789ABCDEF"[d]
  }

  function HexValue(c: char): (d: nat)
    requires IsHex(c)
    ensures d < 16
  {
    if '0' <= c <= '9' then c as int - '0' as int
    else if 'A' <= c <= 'F' then c as int - 'A' as int + 10
    else c as int - 'a' as int + 10
  }

  lemma HexRoundTrip(d: nat)
    requires d < 16
    ensures HexValue(HexDigit(d)) == d
  {
  }

  /** `sprintf('%%%02X', b)`. */
  function Percent(b: byte): (r: string)
    ensures |r| == 3 && r[0] == '%' && IsUpperHex(r[1]) && IsUpperHex(r[2])
    ensures HexValue(r[1]) * 16 + HexValue(r[2]) == b
  {
    HexRoundTrip(b / 16);
    HexRoundTrip(b % 16);
    ['%', HexDigit(b / 16), HexDigit(b % 16)]
  }

  function PercentAll(bs: seq<byte>): (r: string)
    ensures |r| == 3 * |bs|
  {
    if bs == [] then [] else Percent(bs[0]) + PercentAll(bs[1..])
  }

  /** The characters `URI.escape` can produce here: unreserved ones, `%` and uppercase hex digits. */
  predicate EscapedChar(c: char) {
    Unreserved(c) || c == '%'
  }

  lemma PercentAllChars(bs: seq<byte>)
    ensures forall i :: 0 <= i < |PercentAll(bs)| ==> EscapedChar(PercentAll(bs)[i])
  {
    if bs != [] {
      PercentAllChars(bs[1..]);
      var r := PercentAll(bs);
      assert r == Percent(bs[0]) + PercentAll(bs[1..]);
    }
  }

  /** One character, escaped when it is outside the unreserved set. */
  function EscapeChar(c: char): (r: string)
    ensures Unreserved(c) ==> r == [c]
    ensures !Unreserved(c) ==> r == PercentAll(Utf8(c)) && |r| >= 3
    ensures forall i :: 0 <= i < |r| ==> EscapedChar(r[i])
  {
    PercentAllChars(Utf8(c));
    if Unreserved(c) then [c] else PercentAll(Utf8(c))
  }

  /** `URI.escape(s, /[^UNRESERVED]/)`. Its output holds no `&`, `=`, `?` or `/`. */
  function Escape(s: string): (r: string)
    ensures forall i :: 0 <= i < |r| ==> EscapedChar(r[i])
  {
    if s == [] then [] else EscapeChar(s[0]) + Escape(s[1..])
  }

  /** Prepend known bytes to the outcome of decoding the rest. */
  function Prepend(bs: seq<byte>, rest: Option<seq<byte>>): Option<seq<byte>> {
    match rest
    case None => None
    case Some(r) => Some(bs + r)
  }

  /**
   * Percent-decoding: `%XX` (either case of hex digit) is the byte XX; any other
   * ASCII character stands for itself; a malformed escape or a non-ASCII character
   * is rejected.
   */
  function PercentDecode(s: string): Option<seq<byte>>
    decreases |s|
  {
    if s == [] then Some([])
    else if s[0] == '%' then
      if |s| >= 3 && IsHex(s[1]) && IsHex(s[2]) then
        Prepend([HexValue(s[1]) * 16 + HexValue(s[2])], PercentDecode(s[3..]))
      else None
    else if s[0] as int < 0x80 then Prepend([s[0] as int], PercentDecode(s[1..]))
    else None
  }

  lemma DecodePercent(b: byte, rest: string)
    ensures PercentDecode(Percent(b) + rest) == Prepend([b], PercentDecode(rest))
  {
    var p := Percent(b);
    var s := p + rest;
    assert s[0] == '%' && s[1] == p[1] && s[2] == p[2];
    assert s[3..] == rest;
  }

  lemma PrependAssoc(a: seq<byte>, b: seq<byte>, o: Option<seq<byte>>)
    ensures Prepend(a, Prepend(b, o)) == Prepend(a + b, o)
  {
    if o.Some? {
      assert a + (b + o.value) == (a + b) + o.value;
    }
  }

  lemma {:induction false} DecodePercentAll(bs: seq<byte>, rest: string)
    ensures PercentDecode(PercentAll(bs) + rest) == Prepend(bs, PercentDecode(rest))
    decreases |bs|
  {
    if bs == [] {
      assert PercentAll(bs) + rest == rest;
      if PercentDecode(rest).Some? {
        assert bs + PercentDecode(rest).value == PercentDecode(rest).value;
      }
    } else {
      var tail := PercentAll(bs[1..]) + rest;
      assert PercentAll(bs) + rest == Percent(bs[0]) + tail;
      DecodePercent(bs[0], tail);
      DecodePercentAll(bs[1..], rest);
      PrependAssoc([bs[0]], bs[1..], PercentDecode(rest));
      assert [bs[0]] + bs[1..] == bs;
    }
  }

  lemma DecodeEscapeChar(c: char, rest: string)
    ensures PercentDecode(EscapeChar(c) + rest) == Prepend(Utf8(c), PercentDecode(rest))
  {
    if Unreserved(c) {
      var s := EscapeChar(c) + rest;
      assert s[0] == c && s[1..] == rest;
    } else {
      DecodePercentAll(Utf8(c), rest);
    }
  }

  /** Percent-decoding the escaped text gives back the UTF-8 bytes of the original. */
  lemma {:induction false} EscapeRoundTrip(s: string)
    ensures PercentDecode(Escape(s)) == Some(Utf8Str(s))
    decreases |s|
  {
    if s != [] {
      DecodeEscapeChar(s[0], Escape(s[1..]));
      EscapeRoundTrip(s[1..]);
    }
  }

  /**
   * Escaping changes nothing exactly when every character is unreserved; a single
   * other character makes the output longer than the input.
   */
  lemma {:induction false} EscapeIdentity(s: string)
    ensures Escape(s) == s <==> forall i :: 0 <= i < |s| ==> Unreserved(s[i])
    ensures (exists i :: 0 <= i < |s| && !Unreserved(s[i])) ==> |Escape(s)| > |s|
    ensures |Escape(s)| >= |s|
    decreases |s|
  {
    if s != [] {
      EscapeIdentity(s[1..]);
      var t := s[1..];
      if forall i :: 0 <= i < |s| ==> Unreserved(s[i]) {
        assert forall i :: 0 <= i < |t| ==> Unreserved(t[i]) by {
          forall i | 0 <= i < |t| ensures Unreserved(t[i]) {
            assert t[i] == s[i + 1];
          }
        }
        assert Escape(s) == [s[0]] + t;
      } else {
        var i :| 0 <= i < |s| && !Unreserved(s[i]);
        if i > 0 {
          assert !Unreserved(t[i - 1]);
        }
        assert |Escape(s)| > |s|;
      }
    }
  }
}

=== FILE: events.dfy ===
/**
 * The producing operations of a client: `record`, `alias` and `set`
 * (lib/kmts.rb:64-93), guarded by `is_initialized?` (lib/kmts.rb:259-265). Each
 * decides whether a query is built and with which tag, fields and id, then
 * routes it; an exception raised on the way is caught and logged, never
 * propagated to the caller.
 */
module Events {
  import opened Wrappers
  import opened RubyValues
  import opened OrderedHash
  import opened Escaping
  import opened QueryBuilder
  import opened LogStore
  import opened Registry
  import opened Delivery

  /** The `action` of `record`: an event name, or a Hash of properties. */
  datatype Action = Named(event: Value) | Properties(props: Hash)

  /** One call on a client. */
  datatype Call =
    | Record(id: Value, action: Action, props: Hash)
    | AliasCall(name: Value, aliasTo: Value)
    | SetCall(id: Value, data: Hash)

  /** The arguments of the `generate_query(type, data, id)` call an operation makes. */
  datatype Request = Request(kind: EventType, data: Hash, id: Value)

  const NameKey: Value := Str("_n")

  /** `is_initialized?`: the client has a key other than nil. */
  predicate Initialized(c: Client) {
    !c.key.Nil?
  }

  /**
   * The `generate_query` call a producing operation makes, if any: none for a
   * client without a key; `record` with a Hash action is `set(id, action)`;
   * `record` stores `_n` into its (normalised) properties under tag `e`; `alias`
   * sends `_n` and `_p` under tag `a` with a false id; `set` sends its data under
   * tag `s`.
   */
  function Plan(c: Client, call: Call): (r: Option<Request>)
    ensures r.None? <==> !Initialized(c)
    ensures r.Some? && call.Record? && call.action.Named? ==>
      && r.value.kind == Entry
      && r.value.id == call.id
      && Get(r.value.data, NameKey) == call.action.event
      && (forall k :: k != NameKey ==> Get(r.value.data, k) == Get(Normalise(call.props), k))
    ensures r.Some? && call.Record? && call.action.Properties? ==>
      r.value == Request(PropertySet, call.action.props, call.id)
    ensures r.Some? && call.AliasCall? ==>
      && r.value.kind == Alias
      && !Truthy(r.value.id)
      && Get(r.value.data, NameKey) == call.aliasTo
      && Get(r.value.data, IdKey) == call.name
    ensures r.Some? && call.SetCall? ==> r.value == Request(PropertySet, call.data, call.id)
  {
    if !Initialized(c) then None
    else
      match call
      case Record(id, action, props) =>
        (match action
         case Properties(h) => Some(Request(PropertySet, h, id))
         case Named(event) => Some(Request(Entry, Update(Normalise(props), NameKey, event), id)))
      case AliasCall(name, aliasTo) =>
        var data: Hash := [(NameKey, aliasTo), (IdKey, name)];
        assert data[0].0 != IdKey && data[1].0 == IdKey;
        assert Find(data, IdKey) == 1;
        Some(Request(Alias, data, Bool(false)))
      case SetCall(id, data) =>
        Some(Request(PropertySet, data, id))
  }

  /** What a producing operation leaves: the world and the request paths issued. */
  datatype Performed = Performed(world: World, requests: seq<string>)

  /**
   * The body `record`, `alias` and `set` share on client `c`, with `cron` the
   * `@use_cron` that `generate_query` reads (lib/kmts.rb:241): without a key only
   * an initialization error is logged; otherwise the query is built at the
   * clock's time and routed, and an exception the routing raises is logged, so
   * none escapes. The built query is requested only with `cron` off and outside
   * dry-run.
   */
  function Produce(w: World, cfg: Config, clock: Clock, faults: Faults, c: Client, call: Call, net: Outcome, cron: bool): (r: Performed)
    ensures Remembers(w, r.world)
    ensures QueryOf(c, call, clock.now).None? ==> r.requests == []
    ensures QueryOf(c, call, clock.now).Some? ==>
      r.requests == if cron || cfg.dryRun then [] else [QueryOf(c, call, clock.now).value]
  {
    match Plan(c, call)
    case None => Performed(LogError(w, cfg, clock, faults, c.name, InitError), [])
    case Some(req) =>
      var q := BuildQuery(req.kind, req.data, req.id, c.key, clock.now);
      var r := Route(w, cfg, clock, faults, c.name, q, net, cron);
      match r.raised
      case None => Performed(r.world, r.requests)
      case Some(e) => Performed(LogError(r.world, cfg, clock, faults, c.name, e), r.requests)
  }

  /**
   * `record`, `alias` or `set` as written. `generate_query` is an instance
   * method, so the `@use_cron` of line 241 is the client's own, which neither
   * `initialize` (lines 54-62) nor anything else assigns: it is nil, and the
   * class's cron setting (`cfg.useCron`) plays no part. Every built query is
   * requested unless in dry-run.
   */
  function Perform(w: World, cfg: Config, clock: Clock, faults: Faults, c: Client, call: Call, net: Outcome): (r: Performed)
    ensures Remembers(w, r.world)
    ensures QueryOf(c, call, clock.now).None? ==> r.requests == []
    ensures QueryOf(c, call, clock.now).Some? ==>
      r.requests == if cfg.dryRun then [] else [QueryOf(c, call, clock.now).value]
  {
    Produce(w, cfg, clock, faults, c, call, net, false)
  }

  /**
   * The operations as evidently intended: routing follows the cron setting that
   * `init` stores (lib/kmts.rb:34), so in cron mode a built query is queued and
   * not requested.
   */
  function PerformIntended(w: World, cfg: Config, clock: Clock, faults: Faults, c: Client, call: Call, net: Outcome): (r: Performed)
    ensures Remembers(w, r.world)
    ensures QueryOf(c, call, clock.now).None? ==> r.requests == []
    ensures QueryOf(c, call, clock.now).Some? ==>
      r.requests == if cfg.useCron || cfg.dryRun then [] else [QueryOf(c, call, clock.now).value]
  {
    Produce(w, cfg, clock, faults, c, call, net, cfg.useCron)
  }

  /**
   * As written, cron mode does not hold a query back: with `use_cron` set by
   * `init` and dry-run off, an initialized client requests its query at once,
   * where the intended routing requests nothing.
   */
  lemma PerformIgnoresCron(w: World, cfg: Config, clock: Clock, faults: Faults, c: Client, call: Call, net: Outcome)
    requires Initialized(c) && cfg.useCron && !cfg.dryRun
    ensures QueryOf(c, call, clock.now).Some?
    ensures Perform(w, cfg, clock, faults, c, call, net).requests == [QueryOf(c, call, clock.now).value]
    ensures PerformIntended(w, cfg, clock, faults, c, call, net).requests == []
  {
  }

  /** The query a producing operation builds, if it builds one. */
  function QueryOf(c: Client, call: Call, now: nat): Option<string> {
    match Plan(c, call)
    case None => None
    case Some(req) => Some(BuildQuery(req.kind, req.data, req.id, c.key, now))
  }

  /**
   * A query whose request goes through (or any query in dry-run) is recorded on
   * the sent stream, prefixed with the client name, and no other file changes,
   * whatever the cron setting.
   */
  lemma PerformDelivered(w: World, cfg: Config, clock: Clock, faults: Faults, c: Client, call: Call, net: Outcome)
    requires Initialized(c) && (cfg.dryRun || net.Done?)
    requires CacheFits(w, cfg) && NoFaults(faults)
    ensures QueryOf(c, call, clock.now).Some?
    ensures var q := QueryOf(c, call, clock.now).value;
      var r := Perform(w, cfg, clock, faults, c, call, net);
      var sp := FixedPath(cfg, SentLog);
      && r.requests == (if cfg.dryRun then [] else [q])
      && Lines(r.world.files, sp) == Lines(w.files, sp) + [Prefix(c.name, q)]
      && SameExcept(w.files, r.world.files, {sp})
  {
    var q := QueryOf(c, call, clock.now).value;
    DeliverSent(w, cfg, clock, faults, c.name, q, net);
  }

  /**
   * Outside dry-run, whatever the cron setting, a query whose request fails is
   * requested once, appended bare to the query stream (the corrected queue
   * write; the code prefixes the client's name) and reported on the error
   * stream; no other file changes.
   */
  lemma PerformSendFails(w: World, cfg: Config, clock: Clock, faults: Faults, c: Client, call: Call, cause: string)
    requires Initialized(c) && !cfg.dryRun
    requires CacheFits(w, cfg) && NoFaults(faults)
    ensures QueryOf(c, call, clock.now).Some?
    ensures var q := QueryOf(c, call, clock.now).value;
      var r := Perform(w, cfg, clock, faults, c, call, Failed(cause));
      var qp := FixedPath(cfg, QueryLog);
      var ep := FixedPath(cfg, ErrorLog);
      && r.requests == [q]
      && Lines(r.world.files, qp) == Lines(w.files, qp) + [q]
      && Lines(r.world.files, ep) == Lines(w.files, ep) + [ErrorLine(c.name, clock.stamp, SendError(cause, cfg.host))]
      && SameExcept(w.files, r.world.files, {qp, ep})
  {
    var q := QueryOf(c, call, clock.now).value;
    assert faults(w.appends).Done? && faults(w.appends + 1).Done?;
    DeliverFallback(w, cfg, clock, faults, c.name, q, cause);
  }

  /**
   * With the intended routing, cron mode requests nothing, whatever the network
   * would do: the query is appended to the query stream and no other file changes.
   */
  lemma PerformCron(w: World, cfg: Config, clock: Clock, faults: Faults, c: Client, call: Call, net: Outcome)
    requires Initialized(c) && cfg.useCron && CacheFits(w, cfg) && NoFaults(faults)
    ensures QueryOf(c, call, clock.now).Some?
    ensures var q := QueryOf(c, call, clock.now).value;
      var r := PerformIntended(w, cfg, clock, faults, c, call, net);
      var qp := FixedPath(cfg, QueryLog);
      && r.requests == []
      && Lines(r.world.files, qp) == Lines(w.files, qp) + [q]
      && SameExcept(w.files, r.world.files, {qp})
  {
    var q := QueryOf(c, call, clock.now).value;
    RouteCron(w, cfg, clock, faults, c.name, q, net);
  }

  /**
   * A client without a key builds and sends nothing: the only effect is one
   * initialization error on the error stream, whatever the network would do.
   */
  lemma PerformUninitialized(w: World, cfg: Config, clock: Clock, faults: Faults, c: Client, call: Call, net: Outcome)
    requires !Initialized(c) && CacheFits(w, cfg) && NoFaults(faults)
    ensures var r := Perform(w, cfg, clock, faults, c, call, net);
      var ep := FixedPath(cfg, ErrorLog);
      && QueryOf(c, call, clock.now) == None
      && r.requests == []
      && Lines(r.world.files, ep) == Lines(w.files, ep) + [ErrorLine(c.name, clock.stamp, InitError)]
      && SameExcept(w.files, r.world.files, {ep})
  {
    LogFits(w, cfg, clock.now, faults, ErrorLog, c.name, "<" + clock.stamp + "> " + Message(InitError));
  }

  /** `record(id, hash, props)` is `set(id, hash)`: the props are dropped. */
  lemma RecordWithHashIsSet(w: World, cfg: Config, clock: Clock, faults: Faults, c: Client, id: Value, h: Hash, props: Hash, net: Outcome)
    ensures Perform(w, cfg, clock, faults, c, Record(id, Properties(h), props), net)
         == Perform(w, cfg, clock, faults, c, SetCall(id, h), net)
  {
  }

  /** With the intended routing, a query that cron mode cannot queue is reported on the error stream. */
  lemma PerformQueueWriteFails(w: World, cfg: Config, clock: Clock, faults: Faults, c: Client, call: Call, net: Outcome)
    requires Initialized(c) && cfg.useCron && CacheFits(w, cfg)
    requires faults(w.appends).Failed? && faults(w.appends + 1).Done?
    ensures var r := PerformIntended(w, cfg, clock, faults, c, call, net);
      var ep := FixedPath(cfg, ErrorLog);
      && r.requests == []
      && Lines(r.world.files, ep) == Lines(w.files, ep) + [ErrorLine(c.name, clock.stamp, QueryWriteError(faults(w.appends).cause))]
      && SameExcept(w.files, r.world.files, {ep})
  {
    var q := QueryOf(c, call, clock.now).value;
    var r := Route(w, cfg, clock, faults, c.name, q, net, true);
    var e := QueryWriteError(faults(w.appends).cause);
    RouteCronWriteFails(w, cfg, clock, faults, c.name, q, net);
    assert PerformIntended(w, cfg, clock, faults, c, call, net) == Performed(LogError(r.world, cfg, clock, faults, c.name, e), []);
    LogFits(r.world, cfg, clock.now, faults, ErrorLog, c.name, "<" + clock.stamp + "> " + Message(e));
  }

  /** A field present before the reserved fields are stored is still present after. */
  lemma StillFound(data: Hash, r: Hash, k: Value)
    requires KeepsFields(data, r) && Find(data, k) < |data|
    ensures Find(r, k) < |r|
  {
    FoundAt(r, k, Find(data, k));
  }

  /** The hash `record` hands to `generate_query` is already normalised. */
  lemma RecordDataNormal(props: Hash, event: Value)
    ensures Normalise(Update(Normalise(props), NameKey, event)) == Update(Normalise(props), NameKey, event)
  {
    NormaliseNormal(Update(Normalise(props), NameKey, event));
  }

  /**
   * `record(id, event, props)` on an initialized client puts on the wire a query
   * tagged `e` that carries `_n=<event>`, `_k=<key>`, `_p=<id>` for a truthy id,
   * and a `_t` field.
   */
  lemma RecordOnTheWire(c: Client, id: Value, event: Value, props: Hash, now: nat)
    requires Initialized(c)
    ensures var q := QueryOf(c, Record(id, Named(event), props), now);
      && q.Some?
      && var p := ParseQuery(q.value);
      && p.Some? && p.value.tag == 'e'
      && (Utf8Str("_n"), Utf8Str(ToS(event))) in p.value.fields
      && (Utf8Str("_k"), Utf8Str(ToS(c.key))) in p.value.fields
      && (Truthy(id) ==> (Utf8Str("_p"), Utf8Str(ToS(id))) in p.value.fields)
      && exists i :: 0 <= i < |p.value.fields| && p.value.fields[i].0 == Utf8Str("_t")
  {
    var data := Update(Normalise(props), NameKey, event);
    var r := WithReserved(data, id, c.key, now);
    RecordQuery(c, id, event, props, now);
    RecordFields(data, id, c.key, event, now);
  }

  lemma RecordQuery(c: Client, id: Value, event: Value, props: Hash, now: nat)
    requires Initialized(c)
    ensures var data := Update(Normalise(props), NameKey, event);
      QueryOf(c, Record(id, Named(event), props), now) == Some(Render(Entry, WithReserved(data, id, c.key, now)))
  {
    RecordDataNormal(props, event);
  }

  lemma RecordFields(data: Hash, id: Value, key: Value, event: Value, now: nat)
    requires Find(data, NameKey) < |data| && Get(data, NameKey) == event
    ensures var fs := Decoded(WithReserved(data, id, key, now));
      && (Utf8Str("_n"), Utf8Str(ToS(event))) in fs
      && (Utf8Str("_k"), Utf8Str(ToS(key))) in fs
      && (Truthy(id) ==> (Utf8Str("_p"), Utf8Str(ToS(id))) in fs)
      && exists i :: 0 <= i < |fs| && fs[i].0 == Utf8Str("_t")
  {
    var r := WithReserved(data, id, key, now);
    StillFound(data, r, NameKey);
    FieldOnWire(r, NameKey);
    FieldOnWire(r, ClientKey);
    FieldOnWire(r, TimeKey);
    if Truthy(id) {
      FieldOnWire(r, IdKey);
    }
  }

  /**
   * `alias(name, target)` on an initialized client puts on the wire a query
   * tagged `a` whose first two fields are `_n=<target>` and `_p=<name>`, followed
   * by `_k` and `_t`.
   */
  lemma AliasOnTheWire(c: Client, name: Value, aliasTo: Value, now: nat)
    requires Initialized(c)
    ensures var q := QueryOf(c, AliasCall(name, aliasTo), now);
      && q.Some?
      && var p := ParseQuery(q.value);
      && p.Some? && p.value.tag == 'a'
      && p.value.fields == Decoded([(NameKey, aliasTo), (IdKey, name), (ClientKey, c.key), (TimeKey, Int(now))])
  {
    var data: Hash := [(NameKey, aliasTo), (IdKey, name)];
    var r := AliasFields(name, aliasTo, c.key, now);
    AliasQuery(c, name, aliasTo, now);
  }

  lemma AliasQuery(c: Client, name: Value, aliasTo: Value, now: nat)
    requires Initialized(c)
    ensures var data: Hash := [(NameKey, aliasTo), (IdKey, name)];
      QueryOf(c, AliasCall(name, aliasTo), now) == Some(Render(Alias, WithReserved(data, Bool(false), c.key, now)))
  {
    NormaliseNormal([(NameKey, aliasTo), (IdKey, name)]);
  }

  /** The fields of an alias query: `_n`, `_p`, then the appended `_k` and `_t`. */
  lemma AliasFields(name: Value, aliasTo: Value, key: Value, now: nat) returns (r: Hash)
    ensures r == WithReserved([(NameKey, aliasTo), (IdKey, name)], Bool(false), key, now)
    ensures r == [(NameKey, aliasTo), (IdKey, name), (ClientKey, key), (TimeKey, Int(now))]
  {
    var d := AliasIdentity(name, aliasTo, key);
    r := AliasTime(name, aliasTo, key, now);
  }

  lemma AliasIdentity(name: Value, aliasTo: Value, key: Value) returns (d: Hash)
    ensures d == StoreIdentity([(NameKey, aliasTo), (IdKey, name)], Bool(false), key)
    ensures d == [(NameKey, aliasTo), (IdKey, name), (ClientKey, key)]
  {
    var data: Hash := [(NameKey, aliasTo), (IdKey, name)];
    assert NameKey.s[1] == 'n' && IdKey.s[1] == 'p' && ClientKey.s[1] == 'k';
    UpdateNew(data, ClientKey, key);
    d := data + [(ClientKey, key)];
  }

  lemma AliasTime(name: Value, aliasTo: Value, key: Value, now: nat) returns (r: Hash)
    ensures var d: Hash := [(NameKey, aliasTo), (IdKey, name), (ClientKey, key)];
      r == StoreTime(d, now)
    ensures r == [(NameKey, aliasTo), (IdKey, name), (ClientKey, key), (TimeKey, Int(now))]
  {
    var d: Hash := [(NameKey, aliasTo), (IdKey, name), (ClientKey, key)];
    assert NameKey.s[1] == 'n' && IdKey.s[1] == 'p' && ClientKey.s[1] == 'k' && TimeKey.s[1] == 't';
    UpdateNew(d, TimeKey, Int(now));
    assert Get(d, TimeKey) == Nil;
    r := d + [(TimeKey, Int(now))];
  }
}

=== FILE: flush.dfy ===
/**
 * `send_logged_queries` (lib/kmts.rb:95-117), the flush a cron job runs. As
 * written it stops at its first `log_name` call, which the instance cannot
 * resolve, and only logs that error (`FlushAsWritten`). As evidently intended
 * (`Flush`), the queued queries are moved to an in-flight file, each is sent in
 * turn, one that cannot be sent goes back to the queue with its error logged,
 * and the in-flight file is removed once every line has been handled. An
 * exception that escapes the loop (a failed re-queue) is logged and leaves the
 * in-flight file where it is.
 *
 * The network is an oracle: `net(i)` decides the send of the i-th queued line.
 * The clock is read once for the whole flush.
 */
module Flush {
  import opened Wrappers
  import opened RubyValues
  import opened LogStore
  import opened Delivery

  /** What draining the in-flight lines leaves: the world, the exception that stopped it, the requests issued. */
  datatype Drained = Drained(world: World, aborted: Option<Error>, requests: seq<string>)

  /**
   * The loop of lib/kmts.rb:103-111 from line `i` on: each line is delivered with
   * the queue as fallback; an exception raised by the fallback ends the loop.
   * A loop that runs to the end requests every line in order (none in dry-run),
   * and no loop requests more than one path per line.
   */
  function Drain(w: World, cfg: Config, clock: Clock, faults: Faults, net: nat -> Outcome, name: Value, lines: seq<string>, i: nat): (r: Drained)
    requires i <= |lines|
    ensures r.aborted.Some? ==> r.aborted.value.QueryWriteError?
    ensures |r.requests| <= |lines| - i
    ensures r.aborted == None ==> r.requests == if cfg.dryRun then [] else lines[i..]
    decreases |lines| - i
  {
    if i == |lines| then Drained(w, None, [])
    else
      var d := Deliver(w, cfg, clock, faults, name, lines[i], net(i));
      if d.raised.Some? then Drained(d.world, d.raised, d.requests)
      else
        var rest := Drain(d.world, cfg, clock, faults, net, name, lines, i + 1);
        Drained(rest.world, rest.aborted, d.requests + rest.requests)
  }

  /**
   * lib/kmts.rb:98-99: the legacy query file when it exists, the modern one
   * otherwise; both names are memoised on the way.
   */
  function Source(w: World, cfg: Config, now: nat): (r: (string, World))
    ensures r.1.files == w.files && Remembers(w, r.1)
  {
    var (legacy, w1) := LogName(w, cfg, now, LegacyQueryLog);
    if legacy in w1.files then (legacy, w1) else LogName(w1, cfg, now, QueryLog)
  }

  /** What a flush leaves: the world and the request paths issued. */
  datatype Flushed = Flushed(world: World, requests: seq<string>)

  /**
   * `send_logged_queries` as evidently intended, with its `log_name` calls made
   * on the class: nothing happens without a queue file; otherwise it is moved
   * over the in-flight path (replacing a file left there), its lines are
   * drained, and the in-flight file is removed, unless the drain stopped on an
   * exception, which is then logged. Without a queue file no file changes and
   * nothing is requested; with one, at most one request is made per queued line.
   */
  function Flush(w: World, cfg: Config, clock: Clock, faults: Faults, net: nat -> Outcome, name: Value): (r: Flushed)
    ensures var src := Source(w, cfg, clock.now).0;
      && (src !in w.files ==> r.world.files == w.files && r.requests == [])
      && |r.requests| <= |Lines(w.files, src)|
  {
    var (src, w2) := Source(w, cfg, clock.now);
    if src !in w2.files then Flushed(w2, [])
    else
      var (inflight, moved) := MoveToInFlight(w2, cfg, clock.now, src);
      Finish(Drain(moved, cfg, clock, faults, net, name, w2.files[src], 0), cfg, clock, faults, name, inflight)
  }

  /**
   * `send_logged_queries` as written. It is an instance method, and its first
   * `log_name` call (lib/kmts.rb:98) has no receiver, while `log_name` is defined
   * only on the class (lib/kmts.rb:128) and the instance gains wrappers only for
   * `log_query`, `send_query` and `log_error` (lib/kmts.rb:253-257). The call
   * raises NoMethodError, which the rescue of lib/kmts.rb:114-115 hands to the
   * client's `log_error`: nothing is moved, replayed or requested. `receiver` is
   * the client's `inspect` text, which Ruby puts in the message.
   */
  function FlushAsWritten(w: World, cfg: Config, clock: Clock, faults: Faults, name: Value, receiver: string): (r: Flushed)
    ensures r.requests == []
    ensures Remembers(w, r.world)
  {
    Flushed(LogError(w, cfg, clock, faults, name, NoMethodError("log_name", receiver)), [])
  }

  /**
   * As written a flush only reports the missing `log_name`: when the append
   * works, the error stream gains that one line and no other file changes, so
   * the queue files keep their lines; when it fails, no file changes. Nothing is
   * requested either way.
   */
  lemma AsWrittenFlushOnlyLogs(w: World, cfg: Config, clock: Clock, faults: Faults, name: Value, receiver: string)
    requires CacheFits(w, cfg)
    ensures var r := FlushAsWritten(w, cfg, clock, faults, name, receiver);
      var ep := FixedPath(cfg, ErrorLog);
      && r.requests == []
      && (faults(w.appends).Done? ==>
            && Lines(r.world.files, ep) == Lines(w.files, ep) + [ErrorLine(name, clock.stamp, NoMethodError("log_name", receiver))]
            && SameExcept(w.files, r.world.files, {ep}))
      && (faults(w.appends).Failed? ==> r.world.files == w.files)
  {
    LogNameFits(w, cfg, clock.now, ErrorLog);
  }

  /**
   * Queued lines that the intended flush requests, in order, are never requested
   * by the flush as written.
   */
  lemma AsWrittenFlushSendsNothing(w: World, cfg: Config, clock: Clock, faults: Faults, net: nat -> Outcome, name: Value, receiver: string)
    requires CacheFits(w, cfg) && NoFaults(faults) && !cfg.dryRun
    requires FixedPath(cfg, LegacyQueryLog) !in w.files && FixedPath(cfg, QueryLog) in w.files
    ensures FlushAsWritten(w, cfg, clock, faults, name, receiver).requests == []
    ensures Flush(w, cfg, clock, faults, net, name).requests == w.files[FixedPath(cfg, QueryLog)]
  {
    FlushNoFaults(w, cfg, clock, faults, net, name);
  }

  /**
   * lib/kmts.rb:101: the queue file is moved to the in-flight path, replacing
   * whatever file is there; the in-flight path is memoised. Afterwards the
   * in-flight file holds the queued lines, the queue file is gone (unless it is
   * the in-flight path itself), no other file changes and nothing is appended.
   */
  function MoveToInFlight(w: World, cfg: Config, now: nat, src: string): (r: (string, World))
    requires src in w.files
    ensures Remembers(w, r.1) && InFlight in r.1.paths && r.1.paths[InFlight] == r.0
    ensures InFlight !in w.paths ==> r.0 == PathFor(cfg, InFlight, now)
    ensures forall s :: s in r.1.paths ==> s in w.paths || s == InFlight
    ensures r.1.appends == w.appends
    ensures r.0 in r.1.files && r.1.files[r.0] == w.files[src]
    ensures src != r.0 ==> src !in r.1.files
    ensures SameExcept(w.files, r.1.files, {src, r.0})
  {
    var (inflight, w3) := LogName(w, cfg, now, InFlight);
    (inflight, w3.(files := (w3.files - {src})[inflight := w3.files[src]]))
  }

  /**
   * lib/kmts.rb:113-115: after a complete drain the in-flight file is removed;
   * an exception that stopped the drain is logged instead, and the in-flight
   * file stays.
   */
  function Finish(d: Drained, cfg: Config, clock: Clock, faults: Faults, name: Value, inflight: string): (r: Flushed)
    ensures r.requests == d.requests
    ensures d.aborted.None? ==> inflight !in r.world.files
  {
    match d.aborted
    case Some(e) => Flushed(LogError(d.world, cfg, clock, faults, name, e), d.requests)
    case None => Flushed(d.world.(files := d.world.files - {inflight}), d.requests)
  }

  // ---------------------------------------------------------------------------
  // What a flush should do, line by line

  /** Whether the i-th queued line counts as sent: always in dry-run, else when the network says so. */
  predicate Sent(cfg: Config, net: nat -> Outcome, i: nat) {
    cfg.dryRun || net(i).Done?
  }

  /** The lines from `i` on that are sent, in order. */
  function Succeeded(cfg: Config, net: nat -> Outcome, lines: seq<string>, i: nat): seq<string>
    requires i <= |lines|
    decreases |lines| - i
  {
    if i == |lines| then []
    else (if Sent(cfg, net, i) then [lines[i]] else []) + Succeeded(cfg, net, lines, i + 1)
  }

  /** The lines from `i` on that go back to the queue, in order. */
  function Requeued(cfg: Config, net: nat -> Outcome, lines: seq<string>, i: nat): seq<string>
    requires i <= |lines|
    decreases |lines| - i
  {
    if i == |lines| then []
    else (if Sent(cfg, net, i) then [] else [lines[i]]) + Requeued(cfg, net, lines, i + 1)
  }

  /** The error lines logged for the lines from `i` on that cannot be sent. */
  function SendErrors(cfg: Config, net: nat -> Outcome, name: Value, stamp: string, lines: seq<string>, i: nat): seq<string>
    requires i <= |lines|
    decreases |lines| - i
  {
    if i == |lines| then []
    else
      (if Sent(cfg, net, i) then [] else [ErrorLine(name, stamp, SendError(net(i).cause, cfg.host))])
      + SendErrors(cfg, net, name, stamp, lines, i + 1)
  }

  /** Every line as `log` writes it for client `name`. */
  function PrefixAll(name: Value, s: seq<string>): (r: seq<string>)
    ensures |r| == |s|
  {
    if s == [] then [] else [Prefix(name, s[0])] + PrefixAll(name, s[1..])
  }

  lemma PrefixAllAppend(name: Value, a: seq<string>, b: seq<string>)
    ensures PrefixAll(name, a + b) == PrefixAll(name, a) + PrefixAll(name, b)
  {
    if a == [] {
      assert a + b == b;
    } else {
      assert (a + b)[0] == a[0];
      assert (a + b)[1..] == a[1..] + b;
      PrefixAllAppend(name, a[1..], b);
    }
  }

  /**
   * Every queued line is either sent or re-queued, exactly once: no line is lost
   * and none is duplicated.
   */
  lemma {:induction false} SentOrRequeued(cfg: Config, net: nat -> Outcome, lines: seq<string>, i: nat)
    requires i <= |lines|
    ensures multiset(Succeeded(cfg, net, lines, i)) + multiset(Requeued(cfg, net, lines, i)) == multiset(lines[i..])
    decreases |lines| - i
  {
    if i < |lines| {
      SentOrRequeued(cfg, net, lines, i + 1);
      var x := lines[i];
      assert lines[i..] == [x] + lines[i + 1..];
      if Sent(cfg, net, i) {
        assert Succeeded(cfg, net, lines, i) == [x] + Succeeded(cfg, net, lines, i + 1);
        assert Requeued(cfg, net, lines, i) == Requeued(cfg, net, lines, i + 1);
      } else {
        assert Succeeded(cfg, net, lines, i) == Succeeded(cfg, net, lines, i + 1);
        assert Requeued(cfg, net, lines, i) == [x] + Requeued(cfg, net, lines, i + 1);
      }
    }
  }

  /** Every re-queued line comes with exactly one error line. */
  lemma {:induction false} OneErrorPerRequeued(cfg: Config, net: nat -> Outcome, name: Value, stamp: string, lines: seq<string>, i: nat)
    requires i <= |lines|
    ensures |Requeued(cfg, net, lines, i)| == |SendErrors(cfg, net, name, stamp, lines, i)|
    decreases |lines| - i
  {
    if i < |lines| {
      OneErrorPerRequeued(cfg, net, name, stamp, lines, i + 1);
    }
  }

  /** In dry-run nothing goes back to the queue and every line counts as sent. */
  lemma {:induction false} DryRunSendsAll(cfg: Config, net: nat -> Outcome, lines: seq<string>, i: nat)
    requires i <= |lines| && cfg.dryRun
    ensures Succeeded(cfg, net, lines, i) == lines[i..]
    ensures Requeued(cfg, net, lines, i) == []
    decreases |lines| - i
  {
    if i < |lines| {
      DryRunSendsAll(cfg, net, lines, i + 1);
      assert lines[i..] == [lines[i]] + lines[i + 1..];
    }
  }

  // ---------------------------------------------------------------------------
  // The drain

  /** The contents of the sent, query and error streams, or what is added to them. */
  datatype Tally = Tally(sent: seq<string>, queued: seq<string>, errors: seq<string>)

  function Plus(a: Tally, b: Tally): Tally {
    Tally(a.sent + b.sent, a.queued + b.queued, a.errors + b.errors)
  }

  lemma PlusAssoc(a: Tally, b: Tally, c: Tally)
    ensures Plus(Plus(a, b), c) == Plus(a, Plus(b, c))
  {
  }

  /** The sent, query and error streams of a log directory under `cfg`. */
  function Streams(f: Files, cfg: Config): Tally {
    Tally(Lines(f, FixedPath(cfg, SentLog)), Lines(f, FixedPath(cfg, QueryLog)), Lines(f, FixedPath(cfg, ErrorLog)))
  }

  /** What handling line `i` adds to the three streams. */
  function StepTally(cfg: Config, net: nat -> Outcome, name: Value, stamp: string, lines: seq<string>, i: nat): Tally
    requires i < |lines|
  {
    if Sent(cfg, net, i) then Tally([Prefix(name, lines[i])], [], [])
    else Tally([], [lines[i]], [ErrorLine(name, stamp, SendError(net(i).cause, cfg.host))])
  }

  /** What handling the lines from `i` on adds to the three streams. */
  function Expected(cfg: Config, net: nat -> Outcome, name: Value, stamp: string, lines: seq<string>, i: nat): Tally
    requires i <= |lines|
  {
    Tally(PrefixAll(name, Succeeded(cfg, net, lines, i)), Requeued(cfg, net, lines, i), SendErrors(cfg, net, name, stamp, lines, i))
  }

  lemma ExpectedUnfold(cfg: Config, net: nat -> Outcome, name: Value, stamp: string, lines: seq<string>, i: nat)
    requires i < |lines|
    ensures Expected(cfg, net, name, stamp, lines, i)
         == Plus(StepTally(cfg, net, name, stamp, lines, i), Expected(cfg, net, name, stamp, lines, i + 1))
  {
    var head := if Sent(cfg, net, i) then [lines[i]] else [];
    PrefixAllAppend(name, head, Succeeded(cfg, net, lines, i + 1));
    assert PrefixAll(name, head) == StepTally(cfg, net, name, stamp, lines, i).sent;
  }

  /** One line of the drain with working appends: nothing is raised and the line adds its step. */
  lemma DrainStep(w: World, cfg: Config, clock: Clock, faults: Faults, net: nat -> Outcome, name: Value, lines: seq<string>, i: nat)
    requires i < |lines| && CacheFits(w, cfg) && NoFaults(faults)
    ensures var d := Deliver(w, cfg, clock, faults, name, lines[i], net(i));
      && d.raised == None
      && CacheFits(d.world, cfg)
      && Streams(d.world.files, cfg) == Plus(Streams(w.files, cfg), StepTally(cfg, net, name, clock.stamp, lines, i))
  {
    if Sent(cfg, net, i) {
      SentStep(w, cfg, clock, faults, name, lines[i], net(i));
    } else {
      FailedStep(w, cfg, clock, faults, name, lines[i], net(i).cause);
    }
  }

  lemma SentStep(w: World, cfg: Config, clock: Clock, faults: Faults, name: Value, q: string, net: Outcome)
    requires (cfg.dryRun || net.Done?) && CacheFits(w, cfg) && NoFaults(faults)
    ensures var d := Deliver(w, cfg, clock, faults, name, q, net);
      && d.raised == None
      && CacheFits(d.world, cfg)
      && Streams(d.world.files, cfg) == Plus(Streams(w.files, cfg), Tally([Prefix(name, q)], [], []))
  {
    DeliverSent(w, cfg, clock, faults, name, q, net);
    PathsDistinct(cfg, SentLog, QueryLog, 0, 0);
    PathsDistinct(cfg, SentLog, ErrorLog, 0, 0);
  }

  lemma FailedStep(w: World, cfg: Config, clock: Clock, faults: Faults, name: Value, q: string, cause: string)
    requires !cfg.dryRun && CacheFits(w, cfg) && NoFaults(faults)
    ensures var d := Deliver(w, cfg, clock, faults, name, q, Failed(cause));
      && d.raised == None
      && CacheFits(d.world, cfg)
      && Streams(d.world.files, cfg)
         == Plus(Streams(w.files, cfg), Tally([], [q], [ErrorLine(name, clock.stamp, SendError(cause, cfg.host))]))
  {
    assert faults(w.appends).Done? && faults(w.appends + 1).Done?;
    DeliverFallback(w, cfg, clock, faults, name, q, cause);
    var sp, qp, ep := FixedPath(cfg, SentLog), FixedPath(cfg, QueryLog), FixedPath(cfg, ErrorLog);
    PathsDistinct(cfg, SentLog, QueryLog, 0, 0);
    PathsDistinct(cfg, SentLog, ErrorLog, 0, 0);
    var d := Deliver(w, cfg, clock, faults, name, q, Failed(cause));
    assert Lines(d.world.files, sp) == Lines(w.files, sp);
  }

  /**
   * With working appends the drain never stops early: the sent lines land on the
   * sent stream, the others on the query stream with one error line each, and
   * every line is requested unless in dry-run.
   */
  lemma {:induction false} DrainNoFaults(w: World, cfg: Config, clock: Clock, faults: Faults, net: nat -> Outcome, name: Value, lines: seq<string>, i: nat)
    requires i <= |lines| && CacheFits(w, cfg) && NoFaults(faults)
    ensures var r := Drain(w, cfg, clock, faults, net, name, lines, i);
      && r.aborted == None
      && CacheFits(r.world, cfg)
      && Streams(r.world.files, cfg) == Plus(Streams(w.files, cfg), Expected(cfg, net, name, clock.stamp, lines, i))
    decreases |lines| - i
  {
    if i == |lines| {
      assert Expected(cfg, net, name, clock.stamp, lines, i) == Tally([], [], []);
    } else {
      var d := Deliver(w, cfg, clock, faults, name, lines[i], net(i));
      DrainStep(w, cfg, clock, faults, net, name, lines, i);
      DrainNoFaults(d.world, cfg, clock, faults, net, name, lines, i + 1);
      ExpectedUnfold(cfg, net, name, clock.stamp, lines, i);
      PlusAssoc(Streams(w.files, cfg), StepTally(cfg, net, name, clock.stamp, lines, i), Expected(cfg, net, name, clock.stamp, lines, i + 1));
    }
  }

  /** The first line of a drain: either it stops the drain, or the rest follows. */
  lemma DrainHead(w: World, cfg: Config, clock: Clock, faults: Faults, net: nat -> Outcome, name: Value, lines: seq<string>, i: nat)
    requires i < |lines|
    ensures var d := Deliver(w, cfg, clock, faults, name, lines[i], net(i));
      var r := Drain(w, cfg, clock, faults, net, name, lines, i);
      var rest := Drain(d.world, cfg, clock, faults, net, name, lines, i + 1);
      && d.requests == (if cfg.dryRun then [] else [lines[i]])
      && (d.raised.Some? ==> r.aborted.Some?)
      && (d.raised.None? ==> r.aborted == rest.aborted && r.requests == d.requests + rest.requests)
  {
  }

  /**
   * Whatever the appends and the network do, the drain writes only the sent,
   * query and error streams.
   */
  lemma {:induction false} DrainTouches(w: World, cfg: Config, clock: Clock, faults: Faults, net: nat -> Outcome, name: Value, lines: seq<string>, i: nat)
    requires i <= |lines| && CacheFits(w, cfg)
    ensures var r := Drain(w, cfg, clock, faults, net, name, lines, i);
      && CacheFits(r.world, cfg)
      && SameExcept(w.files, r.world.files, {FixedPath(cfg, QueryLog), FixedPath(cfg, SentLog), FixedPath(cfg, ErrorLog)})
    decreases |lines| - i
  {
    var all := {FixedPath(cfg, QueryLog), FixedPath(cfg, SentLog), FixedPath(cfg, ErrorLog)};
    if i < |lines| {
      var d := Deliver(w, cfg, clock, faults, name, lines[i], net(i));
      DeliverTouches(w, cfg, clock, faults, name, lines[i], net(i));
      if d.raised.None? {
        DrainTouches(d.world, cfg, clock, faults, net, name, lines, i + 1);
        var r := Drain(d.world, cfg, clock, faults, net, name, lines, i + 1);
        SameExceptTrans(w.files, d.world.files, r.world.files, all, all);
        assert all + all == all;
      }
    }
  }

  // ---------------------------------------------------------------------------
  // The flush

  /** Under `CacheFits`, the source is the legacy file when it exists, else the modern one. */
  lemma SourceFits(w: World, cfg: Config, now: nat)
    requires CacheFits(w, cfg)
    ensures var (src, w2) := Source(w, cfg, now);
      && src == (if FixedPath(cfg, LegacyQueryLog) in w.files then FixedPath(cfg, LegacyQueryLog) else FixedPath(cfg, QueryLog))
      && CacheFits(w2, cfg)
  {
    var (legacy, w1) := LogName(w, cfg, now, LegacyQueryLog);
    LogNameFits(w, cfg, now, LegacyQueryLog);
    LogNameFits(w1, cfg, now, QueryLog);
  }

  /**
   * The in-flight path is the memoised one if there is one, else the one named
   * after the current time; it is none of the four stream files.
   */
  lemma InFlightFits(w: World, cfg: Config, now: nat)
    requires CacheFits(w, cfg)
    ensures var (p, w3) := LogName(w, cfg, now, InFlight);
      && CacheFits(w3, cfg)
      && p == (if InFlight in w.paths then w.paths[InFlight] else PathFor(cfg, InFlight, now))
      && p != FixedPath(cfg, LegacyQueryLog) && p != FixedPath(cfg, QueryLog)
      && p != FixedPath(cfg, SentLog) && p != FixedPath(cfg, ErrorLog)
  {
    var (p, w3) := LogName(w, cfg, now, InFlight);
    LogNameFits(w, cfg, now, InFlight);
    var t: nat :| w3.paths[InFlight] == PathFor(cfg, InFlight, t);
    PathsDistinct(cfg, InFlight, LegacyQueryLog, t, 0);
    PathsDistinct(cfg, InFlight, QueryLog, t, 0);
    PathsDistinct(cfg, InFlight, SentLog, t, 0);
    PathsDistinct(cfg, InFlight, ErrorLog, t, 0);
  }

  /** The legacy query file is none of the three streams the drain writes. */
  lemma LegacyApart(cfg: Config)
    ensures var lp := FixedPath(cfg, LegacyQueryLog);
      lp != FixedPath(cfg, QueryLog) && lp != FixedPath(cfg, SentLog) && lp != FixedPath(cfg, ErrorLog)
  {
    PathsDistinct(cfg, LegacyQueryLog, QueryLog, 0, 0);
    PathsDistinct(cfg, LegacyQueryLog, SentLog, 0, 0);
    PathsDistinct(cfg, LegacyQueryLog, ErrorLog, 0, 0);
  }

  /** Moving a queue file to the in-flight path empties the modern queue only if it was the one moved. */
  lemma MovedStreams(f: Files, cfg: Config, src: string, inflight: string, lines: seq<string>)
    requires src == FixedPath(cfg, LegacyQueryLog) || src == FixedPath(cfg, QueryLog)
    requires inflight != FixedPath(cfg, QueryLog) && inflight != FixedPath(cfg, SentLog) && inflight != FixedPath(cfg, ErrorLog)
    ensures Streams((f - {src})[inflight := lines], cfg)
         == Tally(Lines(f, FixedPath(cfg, SentLog)),
                  if src == FixedPath(cfg, QueryLog) then [] else Lines(f, FixedPath(cfg, QueryLog)),
                  Lines(f, FixedPath(cfg, ErrorLog)))
  {
    LegacyApart(cfg);
    PathsDistinct(cfg, QueryLog, SentLog, 0, 0);
    PathsDistinct(cfg, QueryLog, ErrorLog, 0, 0);
  }

  /** Removing the in-flight file leaves the three streams as they are. */
  lemma RemovedStreams(f: Files, cfg: Config, inflight: string)
    requires inflight != FixedPath(cfg, QueryLog) && inflight != FixedPath(cfg, SentLog) && inflight != FixedPath(cfg, ErrorLog)
    ensures Streams(f - {inflight}, cfg) == Streams(f, cfg)
  {
  }

  /** Without a queue file a flush changes no file and requests nothing. */
  lemma FlushNothingQueued(w: World, cfg: Config, clock: Clock, faults: Faults, net: nat -> Outcome, name: Value)
    requires CacheFits(w, cfg)
    requires FixedPath(cfg, LegacyQueryLog) !in w.files && FixedPath(cfg, QueryLog) !in w.files
    ensures var r := Flush(w, cfg, clock, faults, net, name);
      r.world.files == w.files && r.requests == []
  {
    SourceFits(w, cfg, clock.now);
  }

  /**
   * A flush with working appends drains the legacy queue file if it exists, the
   * modern one otherwise: every queued line is requested in order (none in
   * dry-run), the sent ones land on the sent stream, the others go back to the
   * modern queue with one error line each, the legacy file and the in-flight
   * file are gone, and no other file changes. The in-flight path is the
   * memoised one, so a file left there by an earlier flush is replaced.
   */
  lemma FlushNoFaults(w: World, cfg: Config, clock: Clock, faults: Faults, net: nat -> Outcome, name: Value)
    requires CacheFits(w, cfg) && NoFaults(faults)
    requires FixedPath(cfg, LegacyQueryLog) in w.files || FixedPath(cfg, QueryLog) in w.files
    ensures var r := Flush(w, cfg, clock, faults, net, name);
      var lp := FixedPath(cfg, LegacyQueryLog);
      var qp := FixedPath(cfg, QueryLog);
      var src := if lp in w.files then lp else qp;
      var lines := w.files[src];
      var e := Expected(cfg, net, name, clock.stamp, lines, 0);
      var inflight := if InFlight in w.paths then w.paths[InFlight] else PathFor(cfg, InFlight, clock.now);
      && r.requests == (if cfg.dryRun then [] else lines)
      && Streams(r.world.files, cfg)
         == Plus(Tally(Lines(w.files, FixedPath(cfg, SentLog)),
                       if src == qp then [] else Lines(w.files, qp),
                       Lines(w.files, FixedPath(cfg, ErrorLog))), e)
      && lp !in r.world.files
      && inflight !in r.world.files
      && SameExcept(w.files, r.world.files, {lp, qp, FixedPath(cfg, SentLog), FixedPath(cfg, ErrorLog), inflight})
  {
    SourceFits(w, cfg, clock.now);
    FlushUnfold(w, cfg, clock, faults, net, name);
    var (src, w2) := Source(w, cfg, clock.now);
    InFlightFits(w2, cfg, clock.now);
    var (inflight, moved) := MoveToInFlight(w2, cfg, clock.now, src);
    assert InFlight in w2.paths <==> InFlight in w.paths;
    var lines := w2.files[src];
    MovedStreams(w.files, cfg, src, inflight, lines);
    ReplayNoFaults(moved, cfg, clock, faults, net, name, inflight, lines);
    var r := Finish(Drain(moved, cfg, clock, faults, net, name, lines, 0), cfg, clock, faults, name, inflight);
    FlushFrame(w.files, moved.files, r.world.files, cfg, src, inflight);
  }

  /**
   * Draining an in-flight file with working appends and finishing: every line is
   * requested, the streams grow by what the lines add, and the in-flight file is
   * removed.
   */
  lemma ReplayNoFaults(moved: World, cfg: Config, clock: Clock, faults: Faults, net: nat -> Outcome, name: Value, inflight: string, lines: seq<string>)
    requires CacheFits(moved, cfg) && NoFaults(faults)
    requires inflight != FixedPath(cfg, QueryLog) && inflight != FixedPath(cfg, SentLog) && inflight != FixedPath(cfg, ErrorLog)
    ensures var r := Finish(Drain(moved, cfg, clock, faults, net, name, lines, 0), cfg, clock, faults, name, inflight);
      && r.requests == (if cfg.dryRun then [] else lines)
      && Streams(r.world.files, cfg) == Plus(Streams(moved.files, cfg), Expected(cfg, net, name, clock.stamp, lines, 0))
      && inflight !in r.world.files
      && SameExcept(moved.files, r.world.files, {FixedPath(cfg, QueryLog), FixedPath(cfg, SentLog), FixedPath(cfg, ErrorLog), inflight})
  {
    DrainNoFaults(moved, cfg, clock, faults, net, name, lines, 0);
    DrainTouches(moved, cfg, clock, faults, net, name, lines, 0);
    var d := Drain(moved, cfg, clock, faults, net, name, lines, 0);
    RemovedStreams(d.world.files, cfg, inflight);
    assert lines[0..] == lines;
  }

  /** The files a flush may change: the two queue files, the sent and error streams, the in-flight file. */
  lemma FlushFrame(f: Files, moved: Files, final: Files, cfg: Config, src: string, inflight: string)
    requires src == FixedPath(cfg, LegacyQueryLog) || (src == FixedPath(cfg, QueryLog) && FixedPath(cfg, LegacyQueryLog) !in f)
    requires src in f && moved == (f - {src})[inflight := f[src]]
    requires inflight != FixedPath(cfg, LegacyQueryLog)
    requires SameExcept(moved, final, {FixedPath(cfg, QueryLog), FixedPath(cfg, SentLog), FixedPath(cfg, ErrorLog), inflight})
    ensures var lp := FixedPath(cfg, LegacyQueryLog);
      && lp !in final
      && SameExcept(f, final, {lp, FixedPath(cfg, QueryLog), FixedPath(cfg, SentLog), FixedPath(cfg, ErrorLog), inflight})
  {
    LegacyApart(cfg);
  }

  /**
   * Whatever the appends and the network do, either the in-flight file is still
   * there holding every line that was queued, or every line was requested (none
   * in dry-run).
   */
  lemma FlushKeepsUnsent(w: World, cfg: Config, clock: Clock, faults: Faults, net: nat -> Outcome, name: Value)
    requires CacheFits(w, cfg)
    requires FixedPath(cfg, LegacyQueryLog) in w.files || FixedPath(cfg, QueryLog) in w.files
    ensures var r := Flush(w, cfg, clock, faults, net, name);
      var lp := FixedPath(cfg, LegacyQueryLog);
      var lines := w.files[if lp in w.files then lp else FixedPath(cfg, QueryLog)];
      var inflight := if InFlight in w.paths then w.paths[InFlight] else PathFor(cfg, InFlight, clock.now);
      && (inflight in r.world.files ==> r.world.files[inflight] == lines)
      && (inflight !in r.world.files ==> r.requests == if cfg.dryRun then [] else lines)
  {
    SourceFits(w, cfg, clock.now);
    FlushUnfold(w, cfg, clock, faults, net, name);
    var (src, w2) := Source(w, cfg, clock.now);
    InFlightFits(w2, cfg, clock.now);
    var (inflight, moved) := MoveToInFlight(w2, cfg, clock.now, src);
    assert InFlight in w2.paths <==> InFlight in w.paths;
    ReplayKeepsUnsent(moved, cfg, clock, faults, net, name, inflight, w2.files[src]);
  }

  /** A flush with a queue file replays it from the in-flight path. */
  lemma FlushUnfold(w: World, cfg: Config, clock: Clock, faults: Faults, net: nat -> Outcome, name: Value)
    requires CacheFits(w, cfg)
    requires FixedPath(cfg, LegacyQueryLog) in w.files || FixedPath(cfg, QueryLog) in w.files
    ensures var (src, w2) := Source(w, cfg, clock.now);
      var (inflight, moved) := MoveToInFlight(w2, cfg, clock.now, src);
      Flush(w, cfg, clock, faults, net, name) == Finish(Drain(moved, cfg, clock, faults, net, name, w2.files[src], 0), cfg, clock, faults, name, inflight)
  {
    SourceFits(w, cfg, clock.now);
  }

  /** Draining an in-flight file and finishing either keeps the file whole or makes every request. */
  lemma ReplayKeepsUnsent(moved: World, cfg: Config, clock: Clock, faults: Faults, net: nat -> Outcome, name: Value, inflight: string, lines: seq<string>)
    requires CacheFits(moved, cfg)
    requires inflight != FixedPath(cfg, QueryLog) && inflight != FixedPath(cfg, SentLog) && inflight != FixedPath(cfg, ErrorLog)
    requires inflight in moved.files && moved.files[inflight] == lines
    ensures var r := Finish(Drain(moved, cfg, clock, faults, net, name, lines, 0), cfg, clock, faults, name, inflight);
      && (inflight in r.world.files ==> r.world.files[inflight] == lines)
      && (inflight !in r.world.files ==> r.requests == if cfg.dryRun then [] else lines)
  {
    DrainTouches(moved, cfg, clock, faults, net, name, lines, 0);
    var d := Drain(moved, cfg, clock, faults, net, name, lines, 0);
    assert lines[0..] == lines;
    assert Lines(d.world.files, inflight) == lines;
    FinishKeeps(d, cfg, clock, faults, name, inflight, lines);
  }

  /** A stopped drain leaves the in-flight file with its lines; a complete one has made every request. */
  lemma FinishKeeps(d: Drained, cfg: Config, clock: Clock, faults: Faults, name: Value, inflight: string, lines: seq<string>)
    requires CacheFits(d.world, cfg) && inflight != FixedPath(cfg, ErrorLog)
    requires d.aborted.Some? ==> inflight in d.world.files && d.world.files[inflight] == lines
    ensures var r := Finish(d, cfg, clock, faults, name, inflight);
      && (inflight in r.world.files <==> d.aborted.Some?)
      && (inflight in r.world.files ==> r.world.files[inflight] == lines)
  {
    if d.aborted.Some? {
      AbortKeeps(d.world, cfg, clock, faults, name, d.aborted.value, inflight, lines);
    }
  }

  /** Logging the exception that stopped a drain leaves the in-flight file as it is. */
  lemma AbortKeeps(w: World, cfg: Config, clock: Clock, faults: Faults, name: Value, e: Error, inflight: string, lines: seq<string>)
    requires CacheFits(w, cfg) && inflight != FixedPath(cfg, ErrorLog) && inflight in w.files && w.files[inflight] == lines
    ensures var f := LogError(w, cfg, clock, faults, name, e).files;
      inflight in f && f[inflight] == lines
  {
    LogNameFits(w, cfg, clock.now, ErrorLog);
  }

  /** Draining never forgets or changes a memoised path. */
  lemma {:induction false} DrainRemembers(w: World, cfg: Config, clock: Clock, faults: Faults, net: nat -> Outcome, name: Value, lines: seq<string>, i: nat)
    requires i <= |lines|
    ensures Remembers(w, Drain(w, cfg, clock, faults, net, name, lines, i).world)
    decreases |lines| - i
  {
    if i < |lines| {
      var d := Deliver(w, cfg, clock, faults, name, lines[i], net(i));
      DrainHead(w, cfg, clock, faults, net, name, lines, i);
      if d.raised.None? {
        DrainRemembers(d.world, cfg, clock, faults, net, name, lines, i + 1);
      }
    }
  }

  /**
   * A flush never forgets or changes a memoised path: the in-flight name chosen
   * by the first flush of a process is the one every later flush uses.
   */
  lemma FlushRemembers(w: World, cfg: Config, clock: Clock, faults: Faults, net: nat -> Outcome, name: Value)
    ensures var r := Flush(w, cfg, clock, faults, net, name);
      && Remembers(w, r.world)
      && ((FixedPath(cfg, LegacyQueryLog) in w.files || FixedPath(cfg, QueryLog) in w.files) && CacheFits(w, cfg) ==>
            InFlight in r.world.paths
            && r.world.paths[InFlight] == if InFlight in w.paths then w.paths[InFlight] else PathFor(cfg, InFlight, clock.now))
  {
    var (src, w2) := Source(w, cfg, clock.now);
    if src in w2.files {
      var (inflight, moved) := MoveToInFlight(w2, cfg, clock.now, src);
      DrainRemembers(moved, cfg, clock, faults, net, name, w2.files[src], 0);
      var d := Drain(moved, cfg, clock, faults, net, name, w2.files[src], 0);
      assert Remembers(d.world, Finish(d, cfg, clock, faults, name, inflight).world);
      if CacheFits(w, cfg) {
        SourceFits(w, cfg, clock.now);
        assert InFlight in w2.paths <==> InFlight in w.paths;
      }
    }
  }

  // ---------------------------------------------------------------------------
  // Queue, then flush

  /**
   * As written, a named client whose request failed queues the query (lib/kmts.rb:
   * 245-247) through its `log_query` wrapper and `log`, which prefixes the name.
   * Replayed by the intended flush (the flush as written replays nothing), the
   * prefixed line is what gets requested, which is not the query that was built.
   */
  lemma AsWrittenReplayAltersQuery(w: World, cfg: Config, clock: Clock, faults: Faults, net: nat -> Outcome, name: Value, q: string)
    requires CacheFits(w, cfg) && NoFaults(faults) && !cfg.dryRun && Present(name)
    requires FixedPath(cfg, LegacyQueryLog) !in w.files && FixedPath(cfg, QueryLog) !in w.files
    ensures var queued := LogQueryAsWritten(w, cfg, clock.now, faults, name, q).world;
      var r := Flush(queued, cfg, clock, faults, net, name);
      && r.requests == [Prefix(name, q)]
      && r.requests != [q]
  {
    var qp := FixedPath(cfg, QueryLog);
    var queued := LogQueryAsWritten(w, cfg, clock.now, faults, name, q).world;
    LogFits(w, cfg, clock.now, faults, QueryLog, name, q);
    LegacyApart(cfg);
    FlushNoFaults(queued, cfg, clock, faults, net, name);
    assert |Prefix(name, q)| != |q|;
  }

  /**
   * With the queued line kept bare, a query whose request failed is requested by
   * the next intended flush exactly as it was built, whichever client flushes.
   */
  lemma FailedSendReplaysQuery(w: World, cfg: Config, clock: Clock, faults: Faults, cause: string, flushNet: nat -> Outcome, name: Value, flusher: Value, q: string)
    requires CacheFits(w, cfg) && NoFaults(faults) && !cfg.dryRun
    requires FixedPath(cfg, LegacyQueryLog) !in w.files && FixedPath(cfg, QueryLog) !in w.files
    ensures var queued := Deliver(w, cfg, clock, faults, name, q, Failed(cause));
      && queued.requests == [q]
      && Flush(queued.world, cfg, clock, faults, flushNet, flusher).requests == [q]
  {
    var queued := Deliver(w, cfg, clock, faults, name, q, Failed(cause));
    assert faults(w.appends).Done? && faults(w.appends + 1).Done?;
    DeliverFallback(w, cfg, clock, faults, name, q, cause);
    LegacyApart(cfg);
    PathsDistinct(cfg, LegacyQueryLog, ErrorLog, 0, 0);
    assert Lines(queued.world.files, FixedPath(cfg, QueryLog)) == [q];
    FlushNoFaults(queued.world, cfg, clock, faults, flushNet, flusher);
  }

  /**
   * With the queued line kept bare and cron mode honoured, a query queued in cron
   * mode is requested by the next intended flush exactly as it was built,
   * whichever client queued it.
   */
  lemma CronReplaySendsQuery(w: World, cfg: Config, clock: Clock, faults: Faults, net: Outcome, flushNet: nat -> Outcome, name: Value, flusher: Value, q: string)
    requires CacheFits(w, cfg) && NoFaults(faults) && cfg.useCron && !cfg.dryRun
    requires FixedPath(cfg, LegacyQueryLog) !in w.files && FixedPath(cfg, QueryLog) !in w.files
    ensures var queued := Route(w, cfg, clock, faults, name, q, net, true);
      && queued.requests == []
      && Flush(queued.world, cfg, clock, faults, flushNet, flusher).requests == [q]
  {
    var queued := Route(w, cfg, clock, faults, name, q, net, true);
    RouteCron(w, cfg, clock, faults, name, q, net);
    LegacyApart(cfg);
    FlushNoFaults(queued.world, cfg, clock, faults, flushNet, flusher);
  }
}

=== FILE: log_store.dfy ===
/**
 * The log streams (lib/kmts.rb:128-145, 147-167, 208-223): file names per stream,
 * memoised in `@logs` for the life of the process; `log`, which prefixes the
 * client name and appends one line, raising only when the query stream cannot
 * be written; and `log_error`.
 *
 * The log directory is a map from path to lines. Whether an append succeeds is
 * not decided by the model: `Faults` says, for the k-th append attempt of the
 * process, whether it fails and with what cause.
 */
module LogStore {
  import opened Wrappers
  import opened RubyValues

  /** The streams `log_name` knows; `InFlight` is the `:send` file a flush drains. */
  datatype Stream = ErrorLog | QueryLog | LegacyQueryLog | SentLog | InFlight

  /**
   * The class-level settings `init` stores (lib/kmts.rb:12-16, 32-36): `@host`,
   * `@log_dir`, `@use_cron`, `@dryrun`, and the environment name, which is
   * detected from the framework (`production` by default) and never nil. A client
   * instance has its own, never assigned, `@use_cron`; `useCron` is the class's.
   */
  datatype Config = Config(host: string, logDir: string, env: string, useCron: bool, dryRun: bool)

  /** One reading of the clock: `Time.now.to_i` and the `strftime('%c')` text of it. */
  datatype Clock = Clock(now: nat, stamp: string)

  /** The outcome of one append or one network send. */
  datatype Outcome = Done | Failed(cause: string)

  /** `faults(k)` decides the k-th append attempt of the process. */
  type Faults = nat -> Outcome

  type Files = map<string, seq<string>>

  /** The log directory, `@logs`, and the number of append attempts made so far. */
  datatype World = World(files: Files, paths: map<Stream, string>, appends: nat)

  /** The exceptions that reach `log_error`. */
  datatype Error =
    | InitError
    | SendError(cause: string, host: string)
    | QueryWriteError(cause: string)
    | NoMethodError(selector: string, receiver: string)

  function Message(e: Error): string {
    match e
    case InitError => "Need to initialize with a valid key"
    case SendError(cause, host) => cause + " for host " + host
    case QueryWriteError(cause) => cause
    case NoMethodError(selector, receiver) => "undefined method `" + selector + "' for " + receiver
  }

  /** The lines of a file; a missing file reads as empty. */
  function Lines(f: Files, p: string): seq<string> {
    if p in f then f[p] else []
  }

  /** The file name `log_name` builds; `env` is the environment name without the leading `_`. */
  function FileName(s: Stream, env: string, now: nat): string {
    var e := "_" + env;
    match s
    case ErrorLog => "kissmetrics" + e + "_error.log"
    case QueryLog => "kissmetrics" + e + "_query.log"
    case LegacyQueryLog => "kissmetrics_query.log"
    case SentLog => "kissmetrics" + e + "_sent.log"
    case InFlight => NatToString(now) + "kissmetrics_" + e + "_sending.log"
  }

  /** `File.join(dir, name)` for a name without a leading `/`. */
  function JoinPath(dir: string, name: string): string {
    if |dir| > 0 && dir[|dir| - 1] == '/' then dir + name else dir + "/" + name
  }

  /** Every log file name ends in `.log`; all but the in-flight one start with `kissmetrics`. */
  lemma FileNameShape(s: Stream, env: string, now: nat)
    ensures var n := FileName(s, env, now);
      && |n| > 16 && n[|n| - 4..] == ".log"
      && (s != InFlight ==> n[..11] == "kissmetrics")
  {
  }

  /**
   * The joined path starts with the directory and ends with the name, which
   * follows a `/`; a separator is added only when the directory lacks one.
   */
  lemma JoinPathShape(dir: string, name: string)
    ensures var r := JoinPath(dir, name);
      && |dir| + |name| <= |r| <= |dir| + 1 + |name|
      && r[..|dir|] == dir && r[|r| - |name|..] == name
      && r[|r| - |name| - 1] == '/'
      && (|dir| > 0 && dir[|dir| - 1] == '/' ==> |r| == |dir| + |name|)
      && (|dir| == 0 || dir[|dir| - 1] != '/' ==> |r| == |dir| + 1 + |name|)
  {
  }

  function PathFor(cfg: Config, s: Stream, now: nat): string {
    JoinPath(cfg.logDir, FileName(s, cfg.env, now))
  }

  /** The path of a stream whose name does not depend on the time. */
  function FixedPath(cfg: Config, s: Stream): string {
    PathFor(cfg, s, 0)
  }

  /** `w'` still knows every path `w` had memoised, unchanged. */
  predicate Remembers(w: World, w': World) {
    forall s :: s in w.paths ==> s in w'.paths && w'.paths[s] == w.paths[s]
  }

  /**
   * `log_name(type)`: the memoised path when there is one, otherwise the path built
   * from the configuration and the current time, which is memoised.
   */
  function LogName(w: World, cfg: Config, now: nat, s: Stream): (r: (string, World))
    ensures r.1.files == w.files && r.1.appends == w.appends
    ensures Remembers(w, r.1) && s in r.1.paths && r.1.paths[s] == r.0
    ensures forall s' :: s' in r.1.paths ==> s' in w.paths || s' == s
    ensures s !in w.paths ==> r.0 == PathFor(cfg, s, now)
  {
    if s in w.paths then (w.paths[s], w)
    else
      var p := PathFor(cfg, s, now);
      (p, w.(paths := w.paths[s := p]))
  }

  /**
   * Memoisation: once a stream's path has been computed, every later `log_name`
   * call for it returns the same path, whatever the configuration or the clock
   * say by then.
   */
  lemma MemoStable(w: World, w': World, cfg: Config, cfg': Config, now: nat, now': nat, s: Stream)
    requires Remembers(LogName(w, cfg, now, s).1, w')
    ensures LogName(w', cfg', now', s).0 == LogName(w, cfg, now, s).0
  {
  }

  /** The name of a stream other than the in-flight file does not depend on the time. */
  lemma NamesIgnoreTime(s: Stream, env: string, t: nat, t': nat)
    requires s != InFlight
    ensures FileName(s, env, t) == FileName(s, env, t')
  {
  }

  /**
   * The in-flight name is the decimal time of its first use followed by
   * `kissmetrics__<env>_sending.log`, with a double underscore; the legacy query
   * file has no environment suffix.
   */
  lemma InFlightNameShape(env: string, t: nat)
    ensures var digits := NatToString(t);
      && FileName(InFlight, env, t) == digits + "kissmetrics__" + env + "_sending.log"
      && DigitsValue(digits) == t
    ensures FileName(LegacyQueryLog, env, t) == "kissmetrics_query.log"
  {
    NatToStringRoundTrip(t);
  }

  /** The character before `.log` tells the streams apart, except the two query files. */
  function Marker(s: Stream): char {
    match s
    case ErrorLog => 'r'
    case QueryLog => 'y'
    case LegacyQueryLog => 'y'
    case SentLog => 't'
    case InFlight => 'g'
  }

  lemma FileNameMarker(s: Stream, env: string, t: nat)
    ensures var f := FileName(s, env, t); |f| >= 10 && f[|f| - 5] == Marker(s)
    ensures s == QueryLog ==> |FileName(s, env, t)| == 22 + |env|
    ensures s == LegacyQueryLog ==> |FileName(s, env, t)| == 21
  {
    var f := FileName(s, env, t);
    match s {
      case ErrorLog => assert f == ("kissmetrics" + "_" + env) + "_error.log";
      case QueryLog => assert f == ("kissmetrics" + "_" + env) + "_query.log";
      case LegacyQueryLog =>
      case SentLog => assert f == ("kissmetrics" + "_" + env) + "_sent.log";
      case InFlight => assert f == (NatToString(t) + "kissmetrics_" + "_" + env) + "_sending.log";
    }
  }

  lemma JoinPathDistinct(dir: string, a: string, b: string)
    requires a != b
    ensures JoinPath(dir, a) != JoinPath(dir, b)
  {
    var d := if |dir| > 0 && dir[|dir| - 1] == '/' then dir else dir + "/";
    assert JoinPath(dir, a) == d + a && JoinPath(dir, b) == d + b;
    assert (d + a)[|d|..] == a && (d + b)[|d|..] == b;
  }

  /** Different streams never share a file, whatever times their names were built at. */
  lemma PathsDistinct(cfg: Config, s1: Stream, s2: Stream, t1: nat, t2: nat)
    requires s1 != s2
    ensures PathFor(cfg, s1, t1) != PathFor(cfg, s2, t2)
  {
    var f1 := FileName(s1, cfg.env, t1);
    var f2 := FileName(s2, cfg.env, t2);
    FileNameMarker(s1, cfg.env, t1);
    FileNameMarker(s2, cfg.env, t2);
    assert f1 != f2 by {
      if Marker(s1) != Marker(s2) {
        assert f1[|f1| - 5] != f2[|f2| - 5];
      } else {
        assert |f1| != |f2|;
      }
    }
    JoinPathDistinct(cfg.logDir, f1, f2);
  }

  /** Every memoised path is the path its stream gets under `cfg` at some time. */
  ghost predicate CacheFits(w: World, cfg: Config) {
    forall s :: s in w.paths ==> exists t: nat :: w.paths[s] == PathFor(cfg, s, t)
  }

  /** Under `CacheFits`, the path of a time-independent stream is its fixed path. */
  lemma FitsFixed(w: World, cfg: Config, s: Stream)
    requires CacheFits(w, cfg) && s != InFlight && s in w.paths
    ensures w.paths[s] == FixedPath(cfg, s)
  {
    var t: nat :| w.paths[s] == PathFor(cfg, s, t);
    NamesIgnoreTime(s, cfg.env, t, 0);
  }

  /** `log_name` keeps `CacheFits`, and gives every time-independent stream its fixed path. */
  lemma LogNameFits(w: World, cfg: Config, now: nat, s: Stream)
    requires CacheFits(w, cfg)
    ensures CacheFits(LogName(w, cfg, now, s).1, cfg)
    ensures s != InFlight ==> LogName(w, cfg, now, s).0 == FixedPath(cfg, s)
  {
    var w' := LogName(w, cfg, now, s).1;
    if s !in w.paths {
      assert w'.paths[s] == PathFor(cfg, s, now);
    }
    if s != InFlight {
      if s in w.paths {
        FitsFixed(w, cfg, s);
      } else {
        NamesIgnoreTime(s, cfg.env, now, 0);
      }
    }
  }

  /** In a world that fits `cfg`, the memoised paths of different streams differ. */
  lemma CachedDistinct(w: World, cfg: Config, s1: Stream, s2: Stream)
    requires CacheFits(w, cfg) && s1 in w.paths && s2 in w.paths && s1 != s2
    ensures w.paths[s1] != w.paths[s2]
  {
    var t1: nat :| w.paths[s1] == PathFor(cfg, s1, t1);
    var t2: nat :| w.paths[s2] == PathFor(cfg, s2, t2);
    PathsDistinct(cfg, s1, s2, t1, t2);
  }

  /** A line as `log` writes it: `"#{name}: #{msg}"` when the name is present. */
  function Prefix(name: Value, msg: string): (r: string)
    ensures Present(name) ==>
      && |r| == |ToS(name)| + 2 + |msg|
      && r[..|ToS(name)|] == ToS(name)
      && r[|ToS(name)|..|ToS(name)| + 2] == ": "
      && r[|ToS(name)| + 2..] == msg
    ensures !Present(name) ==> r == msg
  {
    if Present(name) then ToS(name) + ": " + msg else msg
  }

  function Append(f: Files, p: string, line: string): Files {
    f[p := Lines(f, p) + [line]]
  }

  /** `f'` differs from `f` at most at the paths in `ps`. */
  ghost predicate SameExcept(f: Files, f': Files, ps: set<string>) {
    forall p :: p !in ps ==> (p in f' <==> p in f) && Lines(f', p) == Lines(f, p)
  }

  /** What one `log` call leaves: the new world, and the exception it raises, if any. */
  datatype Written = Written(world: World, raised: Option<Error>)

  /**
   * `log(type, msg, name)`: one line, prefixed with the client name when it is
   * present, appended to the stream's file. A failed append raises for the
   * query stream only and is discarded for every other stream.
   */
  function Log(w: World, cfg: Config, now: nat, faults: Faults, s: Stream, name: Value, msg: string): (r: Written)
    ensures var p := LogName(w, cfg, now, s).0;
      && Remembers(w, r.world)
      && r.world.paths == LogName(w, cfg, now, s).1.paths
      && r.world.appends == w.appends + 1
      && (faults(w.appends).Done? ==>
            && Lines(r.world.files, p) == Lines(w.files, p) + [Prefix(name, msg)]
            && SameExcept(w.files, r.world.files, {p})
            && p in r.world.files
            && r.raised == None)
      && (faults(w.appends).Failed? ==>
            && r.world.files == w.files
            && (r.raised.Some? <==> s == QueryLog)
            && (r.raised.Some? ==> r.raised.value == QueryWriteError(faults(w.appends).cause)))
  {
    var (p, w1) := LogName(w, cfg, now, s);
    match faults(w.appends)
    case Done =>
      Written(w1.(files := Append(w1.files, p, Prefix(name, msg)), appends := w.appends + 1), None)
    case Failed(cause) =>
      Written(w1.(appends := w.appends + 1), if s == QueryLog then Some(QueryWriteError(cause)) else None)
  }

  /**
   * `log_query(msg)` with the queued line kept bare: the query is written as if
   * the client had no name, so the file holds exactly the query that was built.
   */
  function LogQuery(w: World, cfg: Config, now: nat, faults: Faults, msg: string): (r: Written)
    ensures var p := LogName(w, cfg, now, QueryLog).0;
      faults(w.appends).Done? ==> Lines(r.world.files, p) == Lines(w.files, p) + [msg]
  {
    Log(w, cfg, now, faults, QueryLog, Nil, msg)
  }

  /** `log_query(msg)` as lib/kmts.rb:147-149 and 255 write it: through `log` with the client's name. */
  function LogQueryAsWritten(w: World, cfg: Config, now: nat, faults: Faults, name: Value, msg: string): (r: Written)
    ensures var p := LogName(w, cfg, now, QueryLog).0;
      faults(w.appends).Done? ==> Lines(r.world.files, p) == Lines(w.files, p) + [Prefix(name, msg)]
  {
    Log(w, cfg, now, faults, QueryLog, name, msg)
  }

  /** The line `log_error` writes for `e`. */
  function ErrorLine(name: Value, stamp: string, e: Error): string {
    Prefix(name, "<" + stamp + "> " + Message(e))
  }

  /**
   * `log_error(e, name)`: a time-stamped line on the error stream; it never raises,
   * and a failed append is lost.
   */
  function LogError(w: World, cfg: Config, clock: Clock, faults: Faults, name: Value, e: Error): (w': World)
    ensures var p := LogName(w, cfg, clock.now, ErrorLog).0;
      && Remembers(w, w')
      && (faults(w.appends).Done? ==>
            Lines(w'.files, p) == Lines(w.files, p) + [ErrorLine(name, clock.stamp, e)]
            && SameExcept(w.files, w'.files, {p}))
      && (faults(w.appends).Failed? ==> w'.files == w.files)
  {
    Log(w, cfg, clock.now, faults, ErrorLog, name, "<" + clock.stamp + "> " + Message(e)).world
  }

  /** No append ever fails. */
  ghost predicate NoFaults(faults: Faults) {
    forall k :: faults(k).Done?
  }

  /** `log` keeps `CacheFits`, and writes a time-independent stream at its fixed path. */
  lemma LogFits(w: World, cfg: Config, now: nat, faults: Faults, s: Stream, name: Value, msg: string)
    requires CacheFits(w, cfg)
    ensures CacheFits(Log(w, cfg, now, faults, s, name, msg).world, cfg)
    ensures s != InFlight ==> LogName(w, cfg, now, s).0 == FixedPath(cfg, s)
  {
    LogNameFits(w, cfg, now, s);
  }

  lemma SameExceptTrans(f1: Files, f2: Files, f3: Files, a: set<string>, b: set<string>)
    requires SameExcept(f1, f2, a) && SameExcept(f2, f3, b)
    ensures SameExcept(f1, f3, a + b)
  {
  }
}

=== FILE: ordered_hash.dfy ===
/**
 * Ruby's insertion-ordered Hash, as the client uses it: lookup with `[]`,
 * `update` of one key, and `hash_keys_to_str`, which rebuilds a hash with
 * Symbol keys turned into Strings (lib/kmts.rb:124-126).
 */
module OrderedHash {
  import opened RubyValues

  /** The pairs of a Ruby Hash in insertion order. */
  type Hash = seq<(Value, Value)>

  function Keys(h: Hash): (ks: seq<Value>)
    ensures |ks| == |h|
    ensures forall i :: 0 <= i < |h| ==> ks[i] == h[i].0
  {
    seq(|h|, i requires 0 <= i < |h| => h[i].0)
  }

  predicate NoDupKeys(h: Hash) {
    forall i, j :: 0 <= i < j < |h| ==> h[i].0 != h[j].0
  }

  /** Position of the first pair whose key is `k`, or `|h|` when there is none. */
  function Find(h: Hash, k: Value): (i: nat)
    ensures i <= |h|
    ensures i < |h| ==> h[i].0 == k
    ensures forall j :: 0 <= j < i ==> h[j].0 != k
  {
    if h == [] then 0 else if h[0].0 == k then 0 else 1 + Find(h[1..], k)
  }

  /** `hash[k]`: the value stored under `k`, `nil` when the key is absent. */
  function Get(h: Hash, k: Value): Value {
    var i := Find(h, k);
    if i < |h| then h[i].1 else Nil
  }

  /** `Find` only depends on where `k` occurs. */
  lemma FindUnchanged(h: Hash, h': Hash, k: Value)
    requires |h| <= |h'|
    requires forall j :: 0 <= j < |h| ==> (h[j].0 == k <==> h'[j].0 == k)
    requires Find(h, k) < |h|
    ensures Find(h', k) == Find(h, k)
  {
  }

  /**
   * `hash.update(k => v)` (and `hash[k] = v`): an existing key keeps its
   * position and gets the new value; a new key is appended at the end.
   */
  function Update(h: Hash, k: Value, v: Value): (r: Hash)
    ensures Get(r, k) == v && Find(r, k) < |r|
    ensures forall k' :: k' != k ==> Get(r, k') == Get(h, k')
    ensures forall k' :: k' != k && Find(h, k') < |h| ==> Find(r, k') < |r|
    ensures |h| <= |r| <= |h| + 1
    ensures forall i :: 0 <= i < |h| ==> r[i].0 == h[i].0 && (h[i].0 != k ==> r[i].1 == h[i].1)
    ensures forall i :: |h| <= i < |r| ==> r[i].0 == k
    ensures Find(h, k) < |h| ==>
      && |r| == |h|
      && r[Find(h, k)] == (k, v)
      && forall j :: 0 <= j < |h| && j != Find(h, k) ==> r[j] == h[j]
    ensures Find(h, k) == |h| ==> r == h + [(k, v)]
    ensures NoDupKeys(h) ==> NoDupKeys(r)
  {
    var i := Find(h, k);
    var r := if i < |h| then h[i := (k, v)] else h + [(k, v)];
    StoredLookups(h, k, v, r);
    r
  }

  /** Lookups in `h` with the first `k` replaced by (or extended with) `(k, v)`. */
  lemma StoredLookups(h: Hash, k: Value, v: Value, r: Hash)
    requires r == if Find(h, k) < |h| then h[Find(h, k) := (k, v)] else h + [(k, v)]
    ensures Get(r, k) == v && Find(r, k) < |r|
    ensures forall k' :: k' != k ==> Get(r, k') == Get(h, k')
    ensures forall k' :: k' != k && Find(h, k') < |h| ==> Find(r, k') < |r|
  {
    SameKeyLookup(h, k, v, r);
    forall k' | k' != k
      ensures Get(r, k') == Get(h, k')
      ensures Find(h, k') < |h| ==> Find(r, k') < |r|
    {
      OtherLookup(h, k, v, r, k');
    }
  }

  lemma SameKeyLookup(h: Hash, k: Value, v: Value, r: Hash)
    requires r == if Find(h, k) < |h| then h[Find(h, k) := (k, v)] else h + [(k, v)]
    ensures Get(r, k) == v && Find(r, k) < |r|
  {
    var i := Find(h, k);
    if i < |h| {
      assert r == h[i := (k, v)];
      FindUnchanged(h, r, k);
    } else {
      assert r == h + [(k, v)];
      assert r[|h|].0 == k;
      assert forall j :: 0 <= j < |h| ==> r[j] == h[j];
    }
  }

  lemma OtherLookup(h: Hash, k: Value, v: Value, r: Hash, k': Value)
    requires r == if Find(h, k) < |h| then h[Find(h, k) := (k, v)] else h + [(k, v)]
    requires k' != k
    ensures Get(r, k') == Get(h, k')
    ensures Find(h, k') < |h| ==> Find(r, k') == Find(h, k')
  {
    if Find(h, k') < |h| {
      FindUnchanged(h, r, k');
    } else {
      assert forall j :: 0 <= j < |r| ==> r[j].0 != k';
    }
  }

  /** `hash_keys_to_str`'s treatment of one key: a Symbol becomes its name. */
  function NormKey(k: Value): Value {
    if k.Sym? then Str(k.name) else k
  }

  /** The pairs of `h` with every key normalised, positions unchanged. */
  function NormPairs(h: Hash): (r: Hash)
    ensures |r| == |h|
    ensures forall i :: 0 <= i < |h| ==> r[i] == (NormKey(h[i].0), h[i].1)
  {
    seq(|h|, i requires 0 <= i < |h| => (NormKey(h[i].0), h[i].1))
  }

  /** No key of `h` is a Symbol. */
  predicate SymbolFree(h: Hash) {
    forall i :: 0 <= i < |h| ==> !h[i].0.Sym?
  }

  lemma UpdateSymbolFree(h: Hash, k: Value, v: Value)
    requires SymbolFree(h) && !k.Sym?
    ensures SymbolFree(Update(h, k, v))
  {
  }

  /** `Hash[*pairs.flatten]`: the pairs of `h` stored one by one into `acc`. */
  function StoreAll(acc: Hash, h: Hash): (r: Hash)
    ensures NoDupKeys(acc) ==> NoDupKeys(r)
    ensures SymbolFree(acc) ==> SymbolFree(r)
    decreases |h|
  {
    if h == [] then acc
    else
      var next := Update(acc, NormKey(h[0].0), h[0].1);
      if SymbolFree(acc) then UpdateSymbolFree(acc, NormKey(h[0].0), h[0].1); StoreAll(next, h[1..])
      else StoreAll(next, h[1..])
  }

  /**
   * `hash_keys_to_str`: the hash rebuilt with Symbol keys turned into their names.
   * The result never repeats a key and holds no Symbol key.
   */
  function Normalise(h: Hash): (r: Hash)
    ensures NoDupKeys(r) && SymbolFree(r)
  {
    StoreAll([], h)
  }

  /** The value of the LAST pair of `h` whose normalised key is `k`, `nil` if none. */
  function LastValue(h: Hash, k: Value): Value {
    if h == [] then Nil
    else if NormKey(h[|h| - 1].0) == k then h[|h| - 1].1
    else LastValue(h[..|h| - 1], k)
  }

  predicate Mentions(h: Hash, k: Value) {
    exists i :: 0 <= i < |h| && NormKey(h[i].0) == k
  }

  lemma {:induction false} StoreAllGet(acc: Hash, h: Hash, k: Value)
    ensures Get(StoreAll(acc, h), k) == if Mentions(h, k) then LastValue(h, k) else Get(acc, k)
    decreases |h|
  {
    if h != [] {
      var acc' := Update(acc, NormKey(h[0].0), h[0].1);
      StoreAllGet(acc', h[1..], k);
      var t := h[1..];
      if Mentions(t, k) {
        var i :| 0 <= i < |t| && NormKey(t[i].0) == k;
        assert NormKey(h[i + 1].0) == k;
        LastValueOfTail(h, k);
      } else {
        if NormKey(h[0].0) == k {
          assert Mentions(h, k);
          LastValueOfHead(h, k);
        } else {
          forall i | 0 <= i < |h|
            ensures NormKey(h[i].0) != k
          {
            if i > 0 {
              assert h[i] == t[i - 1];
            }
          }
        }
      }
    }
  }

  lemma LastValueOfTail(h: Hash, k: Value)
    requires h != [] && Mentions(h[1..], k)
    ensures LastValue(h, k) == LastValue(h[1..], k)
    decreases |h|
  {
    var t := h[1..];
    if NormKey(h[|h| - 1].0) != k {
      var i :| 0 <= i < |t| && NormKey(t[i].0) == k;
      assert i < |t| - 1;
      assert h[..|h| - 1][1..] == t[..|t| - 1];
      assert NormKey(t[..|t| - 1][i].0) == k;
      LastValueOfTail(h[..|h| - 1], k);
    }
  }

  lemma LastValueOfHead(h: Hash, k: Value)
    requires h != [] && NormKey(h[0].0) == k && !Mentions(h[1..], k)
    ensures LastValue(h, k) == h[0].1
    decreases |h|
  {
    if |h| > 1 {
      assert NormKey(h[1..][|h| - 2].0) == NormKey(h[|h| - 1].0);
      var p := h[..|h| - 1];
      assert p[1..] == h[1..|h| - 1];
      forall i | 0 <= i < |p[1..]|
        ensures NormKey(p[1..][i].0) != k
      {
        assert p[1..][i] == h[1..][i];
      }
      LastValueOfHead(p, k);
    }
  }

  /** Looking a key up in the normalised hash finds the value of the last pair that normalises to it. */
  lemma NormaliseGet(h: Hash, k: Value)
    ensures Get(Normalise(h), k) == LastValue(h, k)
  {
    StoreAllGet([], h, k);
    if !Mentions(h, k) {
      LastValueAbsent(h, k);
    }
  }

  lemma LastValueAbsent(h: Hash, k: Value)
    requires !Mentions(h, k)
    ensures LastValue(h, k) == Nil
  {
    if h != [] {
      var p := h[..|h| - 1];
      forall i | 0 <= i < |p|
        ensures NormKey(p[i].0) != k
      {
        assert p[i] == h[i];
      }
      LastValueAbsent(p, k);
    }
  }

  /** When no two keys of `h` normalise to the same key, storing into `acc` only appends. */
  lemma {:induction false} StoreAllAppends(acc: Hash, h: Hash)
    requires NoDupKeys(acc + NormPairs(h))
    ensures StoreAll(acc, h) == acc + NormPairs(h)
    decreases |h|
  {
    if h != [] {
      var k := NormKey(h[0].0);
      var all := acc + NormPairs(h);
      assert all[|acc|] == (k, h[0].1);
      assert Find(acc, k) == |acc| by {
        forall j | 0 <= j < |acc| ensures acc[j].0 != k {
          assert all[j] == acc[j];
        }
      }
      var acc' := acc + [(k, h[0].1)];
      assert acc' + NormPairs(h[1..]) == all;
      StoreAllAppends(acc', h[1..]);
    }
  }

  /**
   * `hash_keys_to_str` on a hash whose keys stay distinct once normalised (no `:a`
   * next to `"a"`): Symbol keys become their names, every other key and every
   * value is unchanged, and the order is kept.
   */
  lemma NormaliseDistinct(h: Hash)
    requires NoDupKeys(NormPairs(h))
    ensures Normalise(h) == NormPairs(h)
  {
    assert [] + NormPairs(h) == NormPairs(h);
    StoreAllAppends([], h);
  }

  /** Normalising twice is normalising once. */
  lemma NormaliseIdempotent(h: Hash)
    ensures Normalise(Normalise(h)) == Normalise(h)
  {
    var n := Normalise(h);
    assert NormPairs(n) == n;
    NormaliseDistinct(n);
  }

  /** A hash with distinct keys and no Symbol key is left as it is by `hash_keys_to_str`. */
  lemma NormaliseNormal(h: Hash)
    requires NoDupKeys(h)
    requires SymbolFree(h)
    ensures Normalise(h) == h
  {
    assert NormPairs(h) == h;
    NormaliseDistinct(h);
  }

  /**
   * The keys of `seen` followed by those of `ks` that are new, each kept at its
   * first occurrence: the key order of a hash built by storing `ks` one by one.
   */
  function FirstOccurrences(seen: seq<Value>, ks: seq<Value>): seq<Value>
    decreases |ks|
  {
    if ks == [] then seen
    else FirstOccurrences(if ks[0] in seen then seen else seen + [ks[0]], ks[1..])
  }

  /** A key is among the first occurrences exactly when it was seen or occurs in `ks`. */
  lemma {:induction false} FirstOccurrencesHas(seen: seq<Value>, ks: seq<Value>, k: Value)
    ensures k in FirstOccurrences(seen, ks) <==> k in seen || k in ks
    decreases |ks|
  {
    if ks != [] {
      var seen' := if ks[0] in seen then seen else seen + [ks[0]];
      FirstOccurrencesHas(seen', ks[1..], k);
      assert ks == [ks[0]] + ks[1..];
    }
  }

  /** The key of a pair is in a hash's keys exactly when `Find` finds it. */
  lemma KeysFind(h: Hash, k: Value)
    ensures k in Keys(h) <==> Find(h, k) < |h|
  {
    if k in Keys(h) {
      var i :| 0 <= i < |h| && Keys(h)[i] == k;
      FoundAt(h, k, i);
    }
  }

  /** Storing one pair keeps the key order and appends the key if it is new. */
  lemma UpdateKeys(h: Hash, k: Value, v: Value)
    ensures Keys(Update(h, k, v)) == if k in Keys(h) then Keys(h) else Keys(h) + [k]
  {
    KeysFind(h, k);
    var r := Update(h, k, v);
    if Find(h, k) == |h| {
      assert r == h + [(k, v)];
    }
  }

  /** Storing pairs one by one orders the keys by first occurrence. */
  lemma {:induction false} StoreAllKeys(acc: Hash, h: Hash)
    ensures Keys(StoreAll(acc, h)) == FirstOccurrences(Keys(acc), Keys(NormPairs(h)))
    decreases |h|
  {
    if h != [] {
      var k := NormKey(h[0].0);
      var acc' := Update(acc, k, h[0].1);
      UpdateKeys(acc, k, h[0].1);
      StoreAllKeys(acc', h[1..]);
      var ks := Keys(NormPairs(h));
      assert ks[0] == k;
      assert ks[1..] == Keys(NormPairs(h[1..]));
    }
  }

  /**
   * The keys of `hash_keys_to_str`'s result are the normalised keys of the input
   * in the order of their first occurrence, each once: when `:a` and `"a"` both
   * occur, the key sits where the first of them was.
   */
  lemma NormaliseKeys(h: Hash)
    ensures Keys(Normalise(h)) == FirstOccurrences([], Keys(NormPairs(h)))
  {
    StoreAllKeys([], h);
    assert Keys([]) == [];
  }

  /**
   * A key is present in `hash_keys_to_str`'s result exactly when some key of the
   * input normalises to it: no key is invented, none is lost, and a key absent
   * from the result is not one mapped to nil.
   */
  lemma NormaliseMentions(h: Hash, k: Value)
    ensures Find(Normalise(h), k) < |Normalise(h)| <==> Mentions(h, k)
  {
    NormaliseKeys(h);
    KeysFind(Normalise(h), k);
    FirstOccurrencesHas([], Keys(NormPairs(h)), k);
    if k in Keys(NormPairs(h)) {
      var i :| 0 <= i < |h| && Keys(NormPairs(h))[i] == k;
      assert NormKey(h[i].0) == k;
    }
    if Mentions(h, k) {
      var i :| 0 <= i < |h| && NormKey(h[i].0) == k;
      assert Keys(NormPairs(h))[i] == k;
    }
  }

  /** A key stored at some position is found. */
  lemma FoundAt(h: Hash, k: Value, i: nat)
    requires i < |h| && h[i].0 == k
    ensures Find(h, k) <= i
  {
  }

  /** Storing a key the hash does not have appends it. */
  lemma UpdateNew(h: Hash, k: Value, v: Value)
    requires forall j :: 0 <= j < |h| ==> h[j].0 != k
    ensures Find(h, k) == |h| && Update(h, k, v) == h + [(k, v)]
  {
  }
}

=== FILE: query_builder.dfy ===
/**
 * The query builder of `generate_query` (lib/kmts.rb:226-240): the reserved
 * fields are stored into the event's hash, every key and value is escaped, and
 * the pairs are assembled into `/<tag>?k=v&k=v...`. A parser for that shape is
 * the builder's partner: parsing a built query gives back the tag and the
 * UTF-8 bytes of every key and value, in order.
 */
module QueryBuilder {
  import opened Wrappers
  import opened RubyValues
  import opened OrderedHash
  import opened Escaping

  /** The three kinds of event and their one-letter tags on the wire. */
  datatype EventType = Entry | Alias | PropertySet

  function Tag(t: EventType): char {
    match t
    case Entry => 'e'
    case Alias => 'a'
    case PropertySet => 's'
  }

  /** Reserved field names: subject id, client key, backdate flag, timestamp. */
  const IdKey: Value := Str("_p")
  const ClientKey: Value := Str("_k")
  const BackdateKey: Value := Str("_d")
  const TimeKey: Value := Str("_t")

  predicate Reserved(k: Value) {
    k == IdKey || k == ClientKey || k == BackdateKey || k == TimeKey
  }

  /**
   * `r` is `h` with reserved fields stored: every field of `h` keeps its position
   * and, unless it is reserved, its value; fields after them are reserved ones.
   */
  predicate KeepsFields(h: Hash, r: Hash) {
    && |h| <= |r|
    && (forall i :: 0 <= i < |h| ==> r[i].0 == h[i].0 && (!Reserved(h[i].0) ==> r[i].1 == h[i].1))
    && (forall i :: |h| <= i < |r| ==> Reserved(r[i].0))
  }

  lemma StoreReservedKeeps(h: Hash, k: Value, v: Value)
    requires Reserved(k)
    ensures KeepsFields(h, Update(h, k, v))
  {
  }

  lemma KeepsFieldsTrans(a: Hash, b: Hash, c: Hash)
    requires KeepsFields(a, b) && KeepsFields(b, c)
    ensures KeepsFields(a, c)
  {
  }

  /**
   * lib/kmts.rb:230-231: `_p` is stored only for a truthy id, `_k` always.
   * Existing keys keep their position, new ones are appended.
   */
  function StoreIdentity(data: Hash, id: Value, key: Value): (r: Hash)
    ensures Get(r, ClientKey) == key && Find(r, ClientKey) < |r|
    ensures Truthy(id) ==> Get(r, IdKey) == id && Find(r, IdKey) < |r|
    ensures !Truthy(id) ==> Get(r, IdKey) == Get(data, IdKey)
    ensures forall k :: k != IdKey && k != ClientKey ==> Get(r, k) == Get(data, k)
    ensures KeepsFields(data, r) && |r| <= |data| + 2
    ensures NoDupKeys(data) ==> NoDupKeys(r)
  {
    var d1 := if Truthy(id) then Update(data, IdKey, id) else data;
    var r := Update(d1, ClientKey, key);
    IdentityFacts(data, id, key, d1, r);
    r
  }

  lemma IdentityFacts(data: Hash, id: Value, key: Value, d1: Hash, r: Hash)
    requires d1 == if Truthy(id) then Update(data, IdKey, id) else data
    requires r == Update(d1, ClientKey, key)
    ensures Truthy(id) ==> Find(r, IdKey) < |r|
    ensures KeepsFields(data, r)
  {
    StoreReservedKeeps(data, IdKey, id);
    StoreReservedKeeps(d1, ClientKey, key);
    KeepsFieldsTrans(data, d1, r);
  }

  /**
   * lib/kmts.rb:232-233: `_d=1` marks a caller-supplied (truthy) `_t`, and
   * otherwise `_t` becomes the current time; no other field changes.
   */
  function StoreTime(d: Hash, now: nat): (r: Hash)
    ensures Truthy(Get(d, TimeKey)) ==> Get(r, BackdateKey) == Int(1) && Get(r, TimeKey) == Get(d, TimeKey)
    ensures !Truthy(Get(d, TimeKey)) ==> Get(r, TimeKey) == Int(now) && Get(r, BackdateKey) == Get(d, BackdateKey)
    ensures Truthy(Get(r, TimeKey)) && Find(r, TimeKey) < |r|
    ensures forall k :: k != BackdateKey && k != TimeKey ==> Get(r, k) == Get(d, k)
    ensures forall k :: Find(d, k) < |d| ==> Find(r, k) < |r|
    ensures KeepsFields(d, r) && |r| <= |d| + 1
    ensures NoDupKeys(d) ==> NoDupKeys(r)
  {
    var r := if Truthy(Get(d, TimeKey)) then Update(d, BackdateKey, Int(1)) else Update(d, TimeKey, Int(now));
    TimeFacts(d, now, r);
    r
  }

  lemma TimeFacts(d: Hash, now: nat, r: Hash)
    requires r == if Truthy(Get(d, TimeKey)) then Update(d, BackdateKey, Int(1)) else Update(d, TimeKey, Int(now))
    ensures Truthy(Get(r, TimeKey)) && Find(r, TimeKey) < |r|
    ensures forall k :: Find(d, k) < |d| ==> Find(r, k) < |r|
    ensures KeepsFields(d, r)
  {
    StoreReservedKeeps(d, BackdateKey, Int(1));
    StoreReservedKeeps(d, TimeKey, Int(now));
    if Truthy(Get(d, TimeKey)) {
      assert Find(d, TimeKey) < |d|;
    }
  }

  /**
   * lib/kmts.rb:230-233: the reserved fields stored into an event's hash. Only
   * reserved fields change, fields keep their positions, and the result always
   * carries the client key and a timestamp.
   */
  function WithReserved(data: Hash, id: Value, key: Value, now: nat): (r: Hash)
    ensures Get(r, ClientKey) == key && Find(r, ClientKey) < |r|
    ensures Truthy(id) ==> Get(r, IdKey) == id && Find(r, IdKey) < |r|
    ensures !Truthy(id) ==> Get(r, IdKey) == Get(data, IdKey)
    ensures Truthy(Get(data, TimeKey)) ==> Get(r, BackdateKey) == Int(1) && Get(r, TimeKey) == Get(data, TimeKey)
    ensures !Truthy(Get(data, TimeKey)) ==> Get(r, TimeKey) == Int(now) && Get(r, BackdateKey) == Get(data, BackdateKey)
    ensures Truthy(Get(r, TimeKey)) && Find(r, TimeKey) < |r|
    ensures forall k :: !Reserved(k) ==> Get(r, k) == Get(data, k)
    ensures KeepsFields(data, r) && |r| <= |data| + 3
    ensures NoDupKeys(data) ==> NoDupKeys(r)
  {
    var d := StoreIdentity(data, id, key);
    KeepsFieldsTrans(data, d, StoreTime(d, now));
    StoreTime(d, now)
  }

  /** One field on the wire: `URI.escape(k.to_s) + "=" + URI.escape(v.to_s)`. */
  function Pair(k: Value, v: Value): string {
    Escape(ToS(k)) + "=" + Escape(ToS(v))
  }

  function Pairs(h: Hash): (ps: seq<string>)
    ensures |ps| == |h|
    ensures forall i :: 0 <= i < |h| ==> ps[i] == Pair(h[i].0, h[i].1)
  {
    seq(|h|, i requires 0 <= i < |h| => Pair(h[i].0, h[i].1))
  }

  /** `Array#join(sep)`. */
  function Join(parts: seq<string>, sep: char): string {
    if parts == [] then []
    else if |parts| == 1 then parts[0]
    else parts[0] + [sep] + Join(parts[1..], sep)
  }

  /**
   * lib/kmts.rb:240: `'/' + type + '?' + query_arr.join('&')`. Parsing the wire
   * string gives back the tag and, in the order of the hash, the UTF-8 bytes of
   * every key and value.
   */
  function Render(t: EventType, h: Hash): (r: string)
    ensures ParseQuery(r) == Some(Parsed(Tag(t), Decoded(h)))
  {
    RenderedParses(t, h);
    "/" + [Tag(t)] + "?" + Join(Pairs(h), '&')
  }

  /**
   * The query `generate_query` builds for an event of kind `t`: it parses back
   * to its tag and carries the client key under `_k` and a `_t` timestamp.
   */
  function BuildQuery(t: EventType, data: Hash, id: Value, key: Value, now: nat): (r: string)
    ensures var p := ParseQuery(r);
      && p.Some? && p.value.tag == Tag(t)
      && (Utf8Str(ToS(ClientKey)), Utf8Str(ToS(key))) in p.value.fields
      && exists i :: 0 <= i < |p.value.fields| && p.value.fields[i].0 == Utf8Str(ToS(TimeKey))
  {
    var h := WithReserved(Normalise(data), id, key, now);
    FieldOnWire(h, ClientKey);
    NameOnWire(h, TimeKey);
    Render(t, h)
  }

  // ---------------------------------------------------------------------------
  // Parsing a query back

  /** Position of the first `c` in `s`, or `|s|`. */
  function IndexOf(s: string, c: char): (i: nat)
    ensures i <= |s|
    ensures i < |s| ==> s[i] == c
    ensures forall j :: 0 <= j < i ==> s[j] != c
  {
    if s == [] then 0 else if s[0] == c then 0 else 1 + IndexOf(s[1..], c)
  }

  /** `String#split(c, -1)`: the pieces between occurrences of `c`. */
  function Split(s: string, c: char): (r: seq<string>)
    ensures |r| >= 1
    decreases |s|
  {
    var i := IndexOf(s, c);
    if i == |s| then [s] else [s[..i]] + Split(s[i + 1..], c)
  }

  type Field = (seq<byte>, seq<byte>)

  /** A query split into its tag and its decoded fields. */
  datatype Parsed = Parsed(tag: char, fields: seq<Field>)

  /** `k=v`, split at the first `=`, both sides percent-decoded. */
  function ParsePair(p: string): Option<Field> {
    var i := IndexOf(p, '=');
    if i == |p| then None
    else
      match (PercentDecode(p[..i]), PercentDecode(p[i + 1..]))
      case (Some(k), Some(v)) => Some((k, v))
      case _ => None
  }

  function ParsePairs(ps: seq<string>): Option<seq<Field>> {
    if ps == [] then Some([])
    else
      match (ParsePair(ps[0]), ParsePairs(ps[1..]))
      case (Some(f), Some(fs)) => Some([f] + fs)
      case _ => None
  }

  function ParseQuery(q: string): Option<Parsed> {
    if |q| >= 3 && q[0] == '/' && q[2] == '?' then
      if |q| == 3 then Some(Parsed(q[1], []))
      else
        match ParsePairs(Split(q[3..], '&'))
        case Some(fs) => Some(Parsed(q[1], fs))
        case None => None
    else None
  }

  /** What the remote end reads back from a hash: the UTF-8 bytes of each key and value. */
  function Decoded(h: Hash): (r: seq<Field>)
    ensures |r| == |h|
    ensures forall i :: 0 <= i < |h| ==> r[i] == (Utf8Str(ToS(h[i].0)), Utf8Str(ToS(h[i].1)))
  {
    seq(|h|, i requires 0 <= i < |h| => (Utf8Str(ToS(h[i].0)), Utf8Str(ToS(h[i].1))))
  }

  lemma IndexOfAfter(a: string, c: char, b: string)
    requires c !in a
    ensures IndexOf(a + [c] + b, c) == |a|
  {
    var s := a + [c] + b;
    assert s[|a|] == c;
    assert forall j :: 0 <= j < |a| ==> s[j] == a[j];
  }

  lemma IndexOfAbsent(a: string, c: char)
    requires c !in a
    ensures IndexOf(a, c) == |a|
  {
  }

  lemma {:induction false} SplitJoin(parts: seq<string>, c: char)
    requires parts != []
    requires forall i :: 0 <= i < |parts| ==> c !in parts[i]
    ensures Split(Join(parts, c), c) == parts
    decreases |parts|
  {
    var a := parts[0];
    assert c !in a;
    if |parts| == 1 {
      IndexOfAbsent(a, c);
    } else {
      var tail := parts[1..];
      var s := Join(parts, c);
      var rest := Join(tail, c);
      assert s == a + [c] + rest;
      IndexOfAfter(a, c, rest);
      assert s[..|a|] == a;
      assert s[|a| + 1..] == rest;
      forall i | 0 <= i < |tail|
        ensures c !in tail[i]
      {
        assert tail[i] == parts[i + 1];
      }
      SplitJoin(tail, c);
    }
  }

  lemma NoSeparator(s: string, c: char)
    requires !EscapedChar(c)
    ensures c !in Escape(s)
  {
  }

  lemma ParsePairRoundTrip(k: Value, v: Value)
    ensures ParsePair(Pair(k, v)) == Some((Utf8Str(ToS(k)), Utf8Str(ToS(v))))
  {
    var a := Escape(ToS(k));
    var b := Escape(ToS(v));
    var p := Pair(k, v);
    assert p == a + ['='] + b;
    NoSeparator(ToS(k), '=');
    IndexOfAfter(a, '=', b);
    assert p[..|a|] == a;
    assert p[|a| + 1..] == b;
    EscapeRoundTrip(ToS(k));
    EscapeRoundTrip(ToS(v));
  }

  lemma {:induction false} ParsePairsRoundTrip(h: Hash)
    ensures ParsePairs(Pairs(h)) == Some(Decoded(h))
    decreases |h|
  {
    if h != [] {
      var ps := Pairs(h);
      var f := (Utf8Str(ToS(h[0].0)), Utf8Str(ToS(h[0].1)));
      ParsePairRoundTrip(h[0].0, h[0].1);
      assert ParsePair(ps[0]) == Some(f);
      PairsTail(h);
      ParsePairsRoundTrip(h[1..]);
      assert ParsePairs(ps) == Some([f] + Decoded(h[1..]));
      DecodedCons(h);
    }
  }

  lemma PairsTail(h: Hash)
    requires h != []
    ensures Pairs(h)[1..] == Pairs(h[1..])
  {
  }

  lemma DecodedCons(h: Hash)
    requires h != []
    ensures Decoded(h) == [(Utf8Str(ToS(h[0].0)), Utf8Str(ToS(h[0].1)))] + Decoded(h[1..])
  {
  }

  lemma PairAvoidsAmpersand(k: Value, v: Value)
    ensures '&' !in Pair(k, v)
  {
    NoSeparator(ToS(k), '&');
    NoSeparator(ToS(v), '&');
  }

  lemma PairsAvoidAmpersand(h: Hash)
    ensures forall i :: 0 <= i < |Pairs(h)| ==> '&' !in Pairs(h)[i]
  {
    forall i | 0 <= i < |h|
      ensures '&' !in Pairs(h)[i]
    {
      PairAvoidsAmpersand(h[i].0, h[i].1);
    }
  }

  lemma JoinNonEmpty(parts: seq<string>, c: char)
    requires parts != [] && parts[0] != []
    ensures Join(parts, c) != []
  {
  }

  /** The parser reads back `/<tag>?` followed by the `&`-joined pairs of a hash. */
  lemma RenderedParses(t: EventType, h: Hash)
    ensures ParseQuery("/" + [Tag(t)] + "?" + Join(Pairs(h), '&')) == Some(Parsed(Tag(t), Decoded(h)))
  {
    var j := Join(Pairs(h), '&');
    ParseRendered(Tag(t), j);
    if h != [] {
      JoinNonEmpty(Pairs(h), '&');
      PairsAvoidAmpersand(h);
      SplitJoin(Pairs(h), '&');
      ParsePairsRoundTrip(h);
    }
  }

  /** How the parser reads `/<c>?` followed by `j`. */
  lemma ParseRendered(c: char, j: string)
    ensures ParseQuery("/" + [c] + "?" + j) ==
      if j == [] then Some(Parsed(c, []))
      else match ParsePairs(Split(j, '&'))
        case Some(fs) => Some(Parsed(c, fs))
        case None => None
  {
    var q := "/" + [c] + "?" + j;
    assert q[3..] == j;
  }

  /** A field of a hash appears, decoded, among the fields the wire carries. */
  lemma FieldOnWire(h: Hash, k: Value)
    requires Find(h, k) < |h|
    ensures (Utf8Str(ToS(k)), Utf8Str(ToS(Get(h, k)))) in Decoded(h)
  {
    assert Decoded(h)[Find(h, k)] == (Utf8Str(ToS(k)), Utf8Str(ToS(Get(h, k))));
  }

  /** A field that is among the fields of a hash has its name on the wire. */
  lemma NameOnWire(h: Hash, k: Value)
    requires Find(h, k) < |h|
    ensures exists i :: 0 <= i < |Decoded(h)| && Decoded(h)[i].0 == Utf8Str(ToS(k))
  {
    assert Decoded(h)[Find(h, k)].0 == Utf8Str(ToS(k));
  }
}

=== FILE: registry.dfy ===
/**
 * The process-wide registry of named clients: `register` (lib/kmts.rb:42-47).
 */
module Registry {
  import opened Wrappers
  import opened RubyValues

  /** A client: its key (`@key`, possibly nil) and its name (`@name`). */
  datatype Client = Client(key: Value, name: Value)

  /** `@km_inst`: clients by name. A String name and the Symbol of the same text are different names. */
  type Registry = map<Value, Client>

  datatype RegisterError = MustProvideName | AlreadyRegistered(name: Value)

  function ErrorMessage(e: RegisterError): string {
    match e
    case MustProvideName => "Must provide a name"
    case AlreadyRegistered(name) => ToS(name) + " is already registered"
  }

  /** A name `register` accepts: not blank, and a String or a Symbol. */
  function ValidName(name: Value): (r: bool)
    ensures r ==> Truthy(name) && ToS(name) != []
    ensures name.Int? || name.Bool? || name.Nil? ==> !r
  {
    !Blank(name) && (name.Str? || name.Sym?)
  }

  /**
   * `register(key, name)`: a blank name or one that is not a String or Symbol is
   * refused, then a name already in use; otherwise exactly one entry is added and
   * every other entry is left as it was.
   */
  function Register(reg: Registry, key: Value, name: Value): (r: Result<Registry, RegisterError>)
    ensures r.Success? <==> ValidName(name) && name !in reg
    ensures !ValidName(name) ==> r == Failure(MustProvideName)
    ensures ValidName(name) && name in reg ==> r == Failure(AlreadyRegistered(name))
    ensures r.Success? ==>
      && r.value.Keys == reg.Keys + {name}
      && r.value[name] == Client(key, name)
      && forall n :: n in reg ==> r.value[n] == reg[n]
  {
    if !ValidName(name) then Failure(MustProvideName)
    else if name in reg then Failure(AlreadyRegistered(name))
    else Success(reg[name := Client(key, name)])
  }

  /**
   * Registering a name twice fails the second time, and the registry keeps the
   * first client; `"web"` and `:web` are two different names.
   */
  lemma RegisterTwice(reg: Registry, key: Value, key': Value, name: Value)
    requires ValidName(name) && name !in reg
    ensures Register(reg, key, name).Success?
    ensures Register(Register(reg, key, name).value, key', name) == Failure(AlreadyRegistered(name))
    ensures name.Str? && Sym(name.s) !in reg ==> Register(Register(reg, key, name).value, key', Sym(name.s)).Success?
  {
    if name.Str? {
      assert !Blank(Sym(name.s)) by {
        assert name.s != [];
      }
    }
  }
}

=== FILE: ruby_values.dfy ===
/**
 * The Ruby objects that reach the client as ids, names, keys and field values,
 * with the three Ruby (and ActiveSupport) notions the client relies on:
 * `to_s`, truthiness and `blank?`.
 */
module RubyValues {

  /** A Ruby object as far as the client can observe it. */
  datatype Value =
    | Str(s: string)
    | Sym(name: string)
    | Int(i: int)
    | Bool(b: bool)
    | Nil

  /** Ruby truthiness: everything except `nil` and `false`. */
  predicate Truthy(v: Value) {
    !(v.Nil? || v == Bool(false))
  }

  predicate IsDigit(c: char) {
    '0' <= c <= '9'
  }

  function DigitChar(d: nat): (c: char)
    requires d < 10
    ensures IsDigit(c) && DigitValue(c) == d
  {
    "0123456789"[d]
  }

  /** `Integer#to_s` for a non-negative integer. */
  function NatToString(n: nat): (r: string)
    ensures |r| >= 1
    ensures forall i :: 0 <= i < |r| ==> IsDigit(r[i])
    decreases n
  {
    if n < 10 then [DigitChar(n)] else NatToString(n / 10) + [DigitChar(n % 10)]
  }

  /** The value a string of decimal digits denotes. */
  function DigitsValue(s: string): nat
    requires forall i :: 0 <= i < |s| ==> IsDigit(s[i])
  {
    if s == [] then 0 else DigitsValue(s[..|s| - 1]) * 10 + DigitValue(s[|s| - 1])
  }

  function DigitValue(c: char): nat
    requires IsDigit(c)
  {
    c as int - '0' as int
  }

  /** Reading back the decimal text of `n` gives `n`. */
  lemma {:induction false} NatToStringRoundTrip(n: nat)
    ensures DigitsValue(NatToString(n)) == n
    decreases n
  {
    if n >= 10 {
      NatToStringRoundTrip(n / 10);
      var s := NatToString(n);
      assert s[..|s| - 1] == NatToString(n / 10);
    }
  }

  /** `Integer#to_s`. */
  function IntToString(i: int): string {
    if i < 0 then "-" + NatToString(-i) else NatToString(i)
  }

  /** `to_s` as string interpolation and `URI.escape(i.to_s)` use it. */
  function ToS(v: Value): string {
    match v
    case Str(s) => s
    case Sym(n) => n
    case Int(i) => IntToString(i)
    case Bool(b) => if b then "true" else "false"
    case Nil => ""
  }

  /** The characters of the Unicode White_Space property, which `[[:space:]]` matches. */
  predicate IsSpace(c: char) {
    || '\t' <= c <= '\r'
    || c == ' '
    || c == '\U{85}'
    || c == '\U{A0}'
    || c == '\U{1680}'
    || '\U{2000}' <= c <= '\U{200A}'
    || c == '\U{2028}'
    || c == '\U{2029}'
    || c == '\U{202F}'
    || c == '\U{205F}'
    || c == '\U{3000}'
  }

  /**
   * ActiveSupport's `blank?`: `nil` and `false` are blank, a String is blank when it
   * holds only white space, a Symbol when it is empty (through `empty?`), and
   * `true` and numbers never are.
   */
  function Blank(v: Value): (r: bool)
    ensures !Truthy(v) ==> r
    ensures v == Str([]) || v == Sym([]) ==> r
    ensures v.Int? || v == Bool(true) ==> !r
    ensures (v.Str? || v.Sym?) && r ==> forall i :: 0 <= i < |ToS(v)| ==> IsSpace(ToS(v)[i])
  {
    match v
    case Str(s) => forall i :: 0 <= i < |s| ==> IsSpace(s[i])
    case Sym(n) => n == []
    case Int(_) => false
    case Bool(b) => !b
    case Nil => true
  }

  /** ActiveSupport's `present?`. */
  predicate Present(v: Value) {
    !Blank(v)
  }
}

=== FILE: wrappers.dfy ===
/** Failure-carrying datatypes shared by the model. */
module Wrappers {

  /** A value that may be absent (Ruby's `nil` return, a raise that did not happen). */
  datatype Option<+T> = None | Some(value: T)

  /** The outcome of an operation that either produces a value or raises. */
  datatype Result<+R, +E> = Success(value: R) | Failure(error: E)
}
